=== FILE: README.md ===
# Keiser2ANT core in Dafny

A model of the conversion and encoding core of Keiser2ANT. This bridge listens
to the Bluetooth advertisements of a Keiser M-series bike. It re-broadcasts the
readings as ANT+ Bicycle Power and Bike Speed pages, and as Bluetooth Cycling
Speed and Cadence (CSC) and Cycling Power (CP) measurements. The model covers
six parts:

- **Revolution accumulators.** `CountGenerator` (module `Accumulator`) and
  `MockDataRx` (module `MockRx`) turn a growing real revolution total into a
  whole revolution count. They also compute an event time, in 1/1024 s,
  interpolated between the previous event and now (module `EventTime`).
- **Fixed-width views.** `uint8/16/32` (module `FixedWidth`) and the
  `BLEConv`/`ANTConv` accessors over a `DataSrc` record (modules `DataSource`,
  `BleConv`, `AntConv`, `ConvViews`).
- **The Keiser advertisement parser.** It decodes the 17-byte manufacturer
  record under key 0x0102 (module `KeiserFrame`). The two versions are
  `KeiserListener` for keiser.py and `KeiserBike` for bike/keiser.py;
  `KeiserParsers` relates them.
- **ANT+ payloads.** Data page 0x10 (standard power-only) of the Bicycle
  Power profile and data page 0 of the Bike Speed profile (module
  `AntPages`). The `PowerData` counters of ble.py build the power page
  by hand (module `PowerDataModel`).
- **Bluetooth GATT payloads.** CSC Measurement 0x2A5B (section 3.1 of the
  Cycling Speed and Cadence Service 1.0) and Cycling Power Measurement 0x2A63
  (section 3.1 of the Cycling Power Service 1.1), the two feature values, and
  one tick of the transmit loop (module `BleGatt`).
- **Python's `struct`.** The little-endian codes B, H, h and I are modelled
  once (module `StructPack`). Every `struct.pack` and `struct.unpack` call
  of the core goes through it. The power page of ble.py is built by
  `bytearray.append` instead, and `PayloadIsPowerPage` proves it equal to
  the struct-packed page. The Keiser record is read at fixed offsets, and
  that reading is proved equal to struct.unpack. Round trips are proved in both
  directions.

Python numbers are Dafny `int` and `real`. `int(x)` is truncation toward zero
(`Base.Trunc`). `x & (2^k - 1)` on a Python int is Dafny's Euclidean
`x % 2^k`, which agrees with Python's two's-complement masking for negative
values too. Exceptions become values: `Result` for `struct.error` and the
`ValueError` of `bytearray.append`, and `Outcome` for the
`ZeroDivisionError` of `CountGenerator.round`.

Facts of the code the model keeps:

- The ANT+ power page is packed as 8 bytes (`"<BBBBHH"`).
- The speed page id is always 0x00.
- `round`'s rate estimate divides by `now - event_time_ms/1024`. When
  `now*1024` equals the event time, `round` raises `ZeroDivisionError` and
  changes nothing.
- `CountGenerator.add` grows the total before calling `round`. An add that
  raises keeps the grown total, so count = floor(total) can fail after it.

## Model

| member | source | states |
|---|---|---|
| Base.Trunc | tx/conv.py:1-2 | `int()` rounds toward zero: for x >= 0 the result is the greatest integer <= x, for x < 0 the least integer >= x |
| Base.TruncIsFloor | ble_tx_mock.py:26 | on a non-negative total `int()` is the floor |
| FixedWidth.UInt8 | tx/conv.py:1-2 | result in [0, 2^8), congruent to int(val) mod 2^8, and equal to int(val) when that already fits |
| FixedWidth.UInt16 | tx/conv.py:5-6 | result in [0, 2^16), congruent to int(val) mod 2^16, and equal to int(val) when that already fits |
| FixedWidth.UInt32 | tx/conv.py:9-10 | result in [0, 2^32), congruent to int(val) mod 2^32, and equal to int(val) when that already fits |
| FixedWidth.UInt16OfInt | util.py:5-6 | on a whole number uint16 is the remainder mod 2^16 |
| FixedWidth.UInt16Idempotent | tx/conv.py:5-6 | uint16(uint16(x)) == uint16(x) |
| FixedWidth.UInt16OfUInt32 | tx/conv.py:5-10 | uint16(uint32(x)) == uint16(x) |
| FixedWidth.UInt8OfUInt16 | tx/conv.py:1-6 | uint8(uint16(x)) == uint8(x) |
| FixedWidth.WrapsNotSaturates | tx/conv.py:5-6 | wrapping, not saturation: uint16(70000) = 4464, uint8(256) = 0, uint16(-1) = 0xFFFF |
| BleConv.GetWr | tx/conv.py:17-18 | wheel revolutions below 2^32, congruent to int(wr) |
| BleConv.GetCr | tx/conv.py:20-21 | crank revolutions below 2^16, congruent to int(cr) |
| BleConv.GetWev | tx/conv.py:23-24 | wheel event time below 2^16, congruent to int(wev) |
| BleConv.GetCev | tx/conv.py:26-27 | crank event time below 2^16, congruent to int(cev) |
| BleConv.GetPower | tx/conv.py:29-30 | power below 2^16, congruent to int(power) |
| AntConv.GetEventCount | tx/conv.py:37-38 | event count below 2^8, congruent to int(power_event_counts) |
| AntConv.GetCumPower | tx/conv.py:40-41 | accumulated power below 2^16, congruent to int(cum_power) |
| AntConv.GetCadence | tx/conv.py:43-44 | cadence below 2^8, congruent to int(cadence) |
| AntConv.GetPower | tx/conv.py:46-47 | power below 2^16, congruent to int(power) |
| AntConv.GetCumRevCount | tx/conv.py:49-50 | revolution count below 2^16, congruent to int(wr) |
| AntConv.GetEventTimeMs | tx/conv.py:52-53 | event time below 2^16, congruent to int(wev) |
| ConvViews.WheelViewsAgree | tx/conv.py:17-53 | the ANT+ revolution count is the Bluetooth one mod 2^16; the two views give the same wheel event time and the same power |
| ConvViews.CumPowerWraps | tx/conv.py:40-41 | an accumulated power of 70000 reads back as 4464 |
| ConvViews.FreshReadsZero | util.py:79-90 | every accessor of a fresh DataSrc reads 0 |
| EventTime.Interpolate | util.py:67-71 | with diff >= 1 the new event time is the moment a steady rate of diff revolutions since the last event reached int(diff) of them: (t - last) * diff == (now*1024 - last) * int(diff); so it lies in (last, now*1024] when last < now*1024, in [now*1024, last] otherwise, and is exactly now*1024 when diff is whole |
| Accumulator.Init | util.py:46-51 | a fresh generator has total 0, count 0, event time 0 and rate 0, notify off, and satisfies the floor invariant |
| Accumulator.Round | util.py:64-76 | raises ZeroDivisionError and changes nothing exactly when now*1024 equals the event time. Otherwise: with diff < 1 count and time are unchanged; with diff >= 1 the count strictly grows and the time is the moment a steady rate reached the new count: (t - old) * diff == (now*1024 - old) * int(diff), which lies in (old, now*1024]. On success rpm is diff / (now - old/1024) * 60. The floor invariant is restored. The total is never touched |
| Accumulator.Add | util.py:53-55 | the total grows by exactly inc; the count never decreases; it raises exactly when the divisor is zero, with the total already grown; a non-negative increment keeps count = floor(total) after every add that does not raise |
| Accumulator.Set | util.py:57-59 | the total becomes val; the count never decreases; it raises exactly when the divisor is zero; the invariant holds if val is not below the count |
| Accumulator.SetIsAddOfDifference | util.py:53-59 | set(val) is add(val - total): both apply the same round |
| Accumulator.GetReadsFloor | util.py:61-62 | under the invariant, get returns floor(total) as the count |
| Accumulator.RunKeepsInv | util.py:53-73 | from any state with count = floor(total), a run of non-negative adds keeps that invariant after every add that does not raise |
| Accumulator.RunCountMonotone | util.py:64-73 | along any run of adds, a longer prefix never reports a smaller count |
| Accumulator.TwoSamplesExample | util.py:64-71 | 0.6 rev at 1 s and 0.6 rev at 2 s report one revolution, dated 5120/3 ticks, between the two samples |
| MockRx.Init | ble_tx_mock.py:9-13 | total 0, count 0 and event time 0, notify false, invariant holds |
| MockRx.Add | ble_tx_mock.py:15-29 | the total grows by exactly inc. Below one pending revolution nothing else changes; otherwise notify is raised, the count grows and the time is the moment a steady rate reached the new count: (t - old) * diff == (now*1024 - old) * int(diff), within (old, now*1024]. Notify is never lowered and the floor invariant is kept for inc >= 0. The call never divides by zero |
| MockRx.Get | ble_tx_mock.py:31-32 | both readings in [0, 2^16), congruent to the count and to int(event time) |
| MockRx.RunKeepsInv | ble_tx_mock.py:15-26 | with non-negative increments the count is floor(total) after every add |
| MockRx.RunNeverResets | ble_tx_mock.py:15-29 | along any run, notify once raised stays raised and the count never decreases |
| StructPack.Pack | ant_tx.py:100-110 | succeeds exactly when there is one value per code and each fits its code; the buffer then has calcsize bytes; otherwise struct.error |
| StructPack.Unpack | keiser.py:52 | succeeds exactly when the buffer has calcsize bytes, giving one value per code; otherwise struct.error |
| StructPack.UnpackPack | ant_tx.py:100-110 | unpacking a packed buffer gives back the values |
| StructPack.PackUnpack | keiser.py:52 | packing the unpacked values gives back the buffer |
| StructPack.UnpackAt | keiser.py:52 | field i is decoded from the bytes at its offset in the format |
| StructPack.PackAt | ant_tx.py:100-110 | the bytes at field i's offset encode value i |
| StructPack.UnpackFits | keiser.py:52 | every unpacked value fits its code, so re-packing never raises |
| StructPack.FieldRoundTrip | tx/ble.py:133-137 | decoding an encoded field, signed h included, gives back the value |
| StructPack.LittleEndianRoundTrip | ant_tx.py:100-101 | n little-endian bytes read back as the number written |
| StructPack.LittleEndianBytesRoundTrip | keiser.py:52 | writing back the number n bytes denote reproduces the bytes |
| KeiserFrame.DecodeIsUnpack | keiser.py:39-52 | reading the 17 bytes field by field (u8 at 0-3, u16 at 4, 6, 8, 10, u8 at 12 and 13, u16 at 14, u8 at 16) gives exactly the tuple struct.unpack("<BBBBHHHHBBHB") returns |
| KeiserFrame.EncodeIsPack | keiser.py:52 | the record of a valid frame is exactly struct.pack with the same format |
| KeiserFrame.DecodeEncode | keiser.py:52 | decoding the record of a valid frame gives the frame back |
| KeiserFrame.EncodeDecode | keiser.py:52 | re-encoding a decoded record gives the 17 bytes back |
| KeiserFrame.Init | keiser.py:7-19 | bike_id is masked into 0..255, equal to the argument when it already fits; no resistance yet; version, data type and every reading (cadence, heart rate, power, calories, minutes, seconds, distance, gear) zero |
| KeiserFrame.ApplyDecode | keiser.py:53-60 | after decoding, cadence and heart rate are raw/10, distance is (raw & 0x7FFF)/10 and resistance is gear/24*100, all in terms of the record's bytes |
| KeiserFrame.DropTopBit | keiser.py:59 | masking a little-endian u16 with 0x7FFF masks its high byte with 0x7F |
| KeiserFrame.DistanceIgnoresUnitBit | keiser.py:55-59 | the unit bit does not change the distance: the mile branch has no effect |
| KeiserListener.Parse | keiser.py:36-75 | without a 17-byte 0x0102 record for this id nothing changes and the result is False. With one, every field is decoded from it, even when the type byte is not 0. True is returned exactly when that byte is 0. bike_id is unchanged |
| KeiserBike.Parse | bike/keiser.py:35-75 | True exactly when a 17-byte 0x0102 record has this id and type byte 0. A rejected record leaves every field as it was. An accepted one is decoded, with data_type 0 and bike_id unchanged |
| KeiserParsers.SameAcceptance | bike/keiser.py:37 | both parsers accept the same advertisements and agree on everything unless the matching record has a non-zero type |
| KeiserParsers.RejectedRecordDiffers | keiser.py:38-75 | on a matching record of non-zero type both reject, but only bike/keiser.py keeps its previous readings |
| KeiserParsers.DropsMalformed | bike/keiser.py:37 | a 16-byte record, or one with another id, is dropped by both parsers with no change |
| AntPages.PowerPage | ant_tx.py:99-110 | packs without error exactly when count and cadence fit a byte and the two powers fit 16 bits. The result is 8 bytes [0x10, count, 0xFF, cadence, cum lo, cum hi, pwr lo, pwr hi]; otherwise struct.error |
| AntPages.SpeedPage | ant_tx.py:113-121 | packs without error exactly when event time and revolution count fit 16 bits. The result is 8 bytes [0x00, 0xFF, 0xFF, 0xFF, time lo, time hi, rev lo, rev hi]; otherwise struct.error |
| AntPages.PowerPageRoundTrip | ant_tx.py:100-110 | a receiver reads every in-range power field back exactly |
| AntPages.PowerPageBytesRoundTrip | ant_tx.py:100-110 | every power-only page a receiver accepts is the page packed from its own reading |
| AntPages.SpeedPageRoundTrip | ant_tx.py:114-121 | a receiver reads every in-range speed field back exactly |
| AntPages.SpeedPageBytesRoundTrip | ant_tx.py:114-121 | every default speed page a receiver accepts is the page packed from its own reading |
| AntPages.OnNewData | ant_tx.py:99-122 | each sample sends the power page, then the speed page; they decode to the ANT+ view of the source, and neither pack raises |
| PowerDataModel.Update | ble.py:18-22 | count +1 mod 2^8, accumulated power + int(power) mod 2^16, instantaneous power = int(power), cadence = int(cadence) mod 2^8; event time untouched |
| PowerDataModel.UpdateAllCounts | ble.py:19-20 | after n updates from fresh the count is n mod 256 and the accumulated power is the sum of int(power) mod 65536 |
| PowerDataModel.Payload | ble.py:98-105 | builds without error exactly when both powers are in 0..65535, giving 8 bytes starting 0x10 with 0xFF third; otherwise ValueError |
| PowerDataModel.PayloadIsPowerPage | ble.py:98-105 | in every wrapped state whose instantaneous power fits 16 bits the hand-built page equals the struct-packed power-only page of ant_tx.py |
| PowerDataModel.PayloadAfterUpdates | ble.py:95-105 | after any updates the page builds exactly when the last int(power) is in 0..65535 |
| BleGatt.NotifyAll | tx/ble.py:176-186 | 11 bytes with flags 0x03 |
| BleGatt.NotifyAllDecodes | tx/ble.py:176-185 | a client reads wheel revs mod 2^32, wheel time mod 2^16, crank revs mod 2^16 and crank time mod 2^16 |
| BleGatt.NotifyAllCovers | tx/ble.py:176-185 | every measurement carrying both blocks is what notify_all sends for it |
| BleGatt.NotifyCrank | tx/ble.py:188-195 | 5 bytes with flags 0x02 |
| BleGatt.NotifyCrankDecodes | tx/ble.py:188-194 | a client reads only a crank block: revs and time mod 2^16 |
| BleGatt.NotifyWheel | tx/ble.py:197-204 | 7 bytes with flags 0x01 |
| BleGatt.NotifyWheelDecodes | tx/ble.py:197-203 | a client reads only a wheel block: revs mod 2^32, time mod 2^16 |
| BleGatt.CscLengthMatchesFlags | tx/ble.py:176-203 | in every well-formed CSC payload the length is 1 + 6*(flag bit 0) + 4*(flag bit 1) |
| BleGatt.NotifyNewRate | tx/ble.py:132-144 | 4 bytes, the first two (the flags) zero |
| BleGatt.NotifyNewRateDecodes | tx/ble.py:132-143 | a client reads flags 0 and power mod 32768, never negative |
| BleGatt.CpPowerNonNegative | tx/ble.py:133-137 | every flag-0 measurement with non-negative power is what notify_new_rate sends for it |
| BleGatt.CscFeature | tx/ble.py:206-208 | 2 bytes reading back as 0x0003 |
| BleGatt.CpFeature | tx/ble.py:146-148 | 4 bytes reading back as 0 |
| BleGatt.FeaturesMatchMeasurements | tx/ble.py:162-166 | the features are [0x03, 0x00] and four zero bytes; every CSC notification's flags are below 4, so only bits of the advertised 0x03 are set; crank-only clears the wheel bit and wheel-only the crank bit; the CP flags match the CP feature |
| BleGatt.Tick | tx/ble.py:256-297 | a tick with no_data emits nothing; otherwise exactly one CSC notification, then one CP notification |
| BleGatt.TickPayloads | tx/ble.py:263-297 | a tick with data sends the full CSC block from the Bluetooth view of the source, and int(power) mod 32768 as power |

## Left out

- `power_to_speed` (util.py:13-37): it needs fractional powers and cube roots of reals, which Dafny's `real` cannot express. Nothing in the model uses `speed`.
- Floating point: Python floats are modelled as exact reals, so rounding in `/ 10`, `* 1024`, the interpolation and `gear / 24 * 100` is not modelled.
- ANT USB discovery, node and channel setup, and `send_msg` (ant_tx.py:9-81, ble.py:25-88): device I/O. A sent page is modelled as a `Message` value.
- GATT service registration, advertising, the agent, and main.py: BlueZ server plumbing. `characteristic.changed(...)` is modelled as a `Notification` value.
- Scanner loops, timeouts, `asyncio.Event` signalling and `asyncio.sleep` (keiser.py:21-34, 77-90; bike/keiser.py:25-33, 77-88; ant_tx.py:86-91; tx/ble.py:256-258): concurrency and timing. `no_data` is an input of `BleGatt.Tick`.
- Random simulators (`BikeData.loop` in ble_tx_mock.py, bike/sim.py) and all `print` and `time.time()` calls.
- The converter's `feed` and the `Bike` base class are not part of this model. The bike's readings reach the encoders only through a `DataSrc` value.
- `sensor_location` and the control-point characteristics: constant reads and empty handlers, outside the measurement encoders.
- Accumulator.Get: no contract of its own. It is a plain read, and `GetReadsFloor` states what it returns under the invariant.
- Accumulator.Run, MockRx.Run, PowerDataModel.UpdateAll: fold the single-call functions over a list of calls. Their properties are the Run and UpdateAll lemmas.
- `CountGenerator.notify`: the source never assigns it after construction (the lines that would are commented out), so the model keeps it false.
- The ordering of dict entries in `parse_keiser_msd`: dict keys are unique, so at most one entry can match and the order does not matter. The dict is a `map`.
- KeiserFrame.Init: the default arguments `bike_id=4` (keiser.py:7) and `bike_id=0` (bike/keiser.py:9) are not modelled; `Init` always takes the id explicitly.
- AntPages.OnNewData, BleGatt.Tick: the `pd` of ant_tx.py:83-121 is taken to be an `ANTConv` and the `bike_data` of tx/ble.py:259-267 a `BLEConv` over a `DataSrc`. The classes the program actually passes there are not part of this model, and "neither pack raises" rests on that identification.
- KeiserFrame.Decode: its own contract states only that every field fits its width. It reads the bytes at fixed offsets, and `DecodeIsUnpack` proves this is the struct.unpack the source calls.
- KeiserFrame.Encode: the bike's side of the record, written only as the inverse of `Decode` for the round trips. The bridge never encodes a Keiser record.

=== FILE: ant_pages.dfy ===
/** The two ANT+ broadcast payloads AntPlusTx.loop builds on each new sample
    (ant_tx.py): data page 0x10, "standard power-only", of the Bicycle Power
    device profile on the power channel, then data page 0 of the Bike Speed
    device profile on the speed channel. Both are 8 bytes, little-endian,
    packed with struct and so raising struct.error on an out-of-range field. */
module AntPages {
  import opened Base
  import opened StructPack
  import opened DataSource
  import AntConv

  const POWER_PAGE_ID: int := 0x10
  const DEFAULT_PAGE_ID: int := 0x00
  /** Pedal power byte: not used. */
  const PEDAL_POWER_UNUSED: int := 0xFF
  /** "<BB" + "BB" + "HH" */
  const POWER_FORMAT: seq<Code> := [U8, U8, U8, U8, U16, U16]
  /** "<B" + "BH" + "HH" */
  const SPEED_FORMAT: seq<Code> := [U8, U8, U16, U16, U16]

  datatype PowerFields = PowerFields(eventCount: int, cadence: int, cumPower: int, power: int)
  datatype SpeedFields = SpeedFields(eventTime: int, cumRevCount: int)

  predicate PowerFieldsFit(f: PowerFields)
  {
    0 <= f.eventCount < 0x100 && 0 <= f.cadence < 0x100 && 0 <= f.cumPower < 0x1_0000 && 0 <= f.power < 0x1_0000
  }

  predicate SpeedFieldsFit(f: SpeedFields)
  {
    0 <= f.eventTime < 0x1_0000 && 0 <= f.cumRevCount < 0x1_0000
  }

  lemma PowerFormatOffsets()
    ensures CalcSize(POWER_FORMAT) == 8 && |POWER_FORMAT| == 6
    ensures Offset(POWER_FORMAT, 0) == 0 && Offset(POWER_FORMAT, 1) == 1 && Offset(POWER_FORMAT, 2) == 2
    ensures Offset(POWER_FORMAT, 3) == 3 && Offset(POWER_FORMAT, 4) == 4 && Offset(POWER_FORMAT, 5) == 6
  {
  }

  lemma SpeedFormatOffsets()
    ensures CalcSize(SPEED_FORMAT) == 8 && |SPEED_FORMAT| == 5
    ensures Offset(SPEED_FORMAT, 0) == 0 && Offset(SPEED_FORMAT, 1) == 1 && Offset(SPEED_FORMAT, 2) == 2
    ensures Offset(SPEED_FORMAT, 3) == 4 && Offset(SPEED_FORMAT, 4) == 6
  {
  }

  /** struct.pack("<BBBBHH", 0x10, event count, 0xFF, cadence, cumulative
      power, power). */
  function PowerPage(f: PowerFields): (r: Result<seq<byte>>)
    ensures r.Ok? <==> PowerFieldsFit(f)
    ensures r.Err? ==> r.error == StructError
    ensures r.Ok? ==> |r.value| == 8
    ensures r.Ok? ==> (r.value[0] == POWER_PAGE_ID && r.value[1] == f.eventCount &&
                       r.value[2] == PEDAL_POWER_UNUSED && r.value[3] == f.cadence)
    ensures r.Ok? ==> (r.value[4] == f.cumPower % 0x100 && r.value[5] == f.cumPower / 0x100 &&
                       r.value[6] == f.power % 0x100 && r.value[7] == f.power / 0x100)
  {
    var vals := [POWER_PAGE_ID, f.eventCount, PEDAL_POWER_UNUSED, f.cadence, f.cumPower, f.power];
    var r := Pack(POWER_FORMAT, vals);
    PowerFormatOffsets();
    if r.Ok? then
      PackedU8(POWER_FORMAT, vals, 0, 0);
      PackedU8(POWER_FORMAT, vals, 1, 1);
      PackedU8(POWER_FORMAT, vals, 2, 2);
      PackedU8(POWER_FORMAT, vals, 3, 3);
      PackedU16(POWER_FORMAT, vals, 4, 4);
      PackedU16(POWER_FORMAT, vals, 5, 6);
      r
    else
      r
  }

  /** struct.pack("<BBHHH", 0x00, 0xFF, 0xFFFF, event time, revolution count). */
  function SpeedPage(f: SpeedFields): (r: Result<seq<byte>>)
    ensures r.Ok? <==> SpeedFieldsFit(f)
    ensures r.Err? ==> r.error == StructError
    ensures r.Ok? ==> |r.value| == 8
    ensures r.Ok? ==> r.value[0] == DEFAULT_PAGE_ID && r.value[1] == 0xFF && r.value[2] == 0xFF && r.value[3] == 0xFF
    ensures r.Ok? ==> (r.value[4] == f.eventTime % 0x100 && r.value[5] == f.eventTime / 0x100 &&
                       r.value[6] == f.cumRevCount % 0x100 && r.value[7] == f.cumRevCount / 0x100)
  {
    var vals := [DEFAULT_PAGE_ID, 0xFF, 0xFFFF, f.eventTime, f.cumRevCount];
    var r := Pack(SPEED_FORMAT, vals);
    SpeedFormatOffsets();
    if r.Ok? then
      PackedU8(SPEED_FORMAT, vals, 0, 0);
      PackedU8(SPEED_FORMAT, vals, 1, 1);
      PackedU16(SPEED_FORMAT, vals, 2, 2);
      PackedU16(SPEED_FORMAT, vals, 3, 4);
      PackedU16(SPEED_FORMAT, vals, 4, 6);
      r
    else
      r
  }

  /** A receiver's reading of a power-only page. */
  function DecodePowerPage(p: seq<byte>): Option<PowerFields>
  {
    if |p| == 8 && p[0] as int == POWER_PAGE_ID && p[2] as int == PEDAL_POWER_UNUSED then
      Some(PowerFields(p[1] as int, p[3] as int, p[4] as int + 0x100 * (p[5] as int), p[6] as int + 0x100 * (p[7] as int)))
    else
      None
  }

  /** A receiver's reading of a default speed page. */
  function DecodeSpeedPage(p: seq<byte>): Option<SpeedFields>
  {
    if |p| == 8 && p[0] as int == DEFAULT_PAGE_ID && p[1] == 0xFF && p[2] == 0xFF && p[3] == 0xFF then
      Some(SpeedFields(p[4] as int + 0x100 * (p[5] as int), p[6] as int + 0x100 * (p[7] as int)))
    else
      None
  }

  lemma PowerPageRoundTrip(f: PowerFields)
    requires PowerFieldsFit(f)
    ensures DecodePowerPage(PowerPage(f).value) == Some(f)
  {
  }

  lemma PowerPageBytesRoundTrip(p: seq<byte>)
    requires DecodePowerPage(p).Some?
    ensures PowerPage(DecodePowerPage(p).value) == Ok(p)
  {
    var q := PowerPage(DecodePowerPage(p).value).value;
    assert q == p;
  }

  lemma SpeedPageRoundTrip(f: SpeedFields)
    requires SpeedFieldsFit(f)
    ensures DecodeSpeedPage(SpeedPage(f).value) == Some(f)
  {
  }

  lemma SpeedPageBytesRoundTrip(p: seq<byte>)
    requires DecodeSpeedPage(p).Some?
    ensures SpeedPage(DecodeSpeedPage(p).value) == Ok(p)
  {
    var q := SpeedPage(DecodeSpeedPage(p).value).value;
    assert q == p;
  }

  datatype Channel = PowerChannel | SpeedChannel
  datatype Message = Message(channel: Channel, payload: seq<byte>)

  /** The two broadcasts sent for one new sample, in order, from the ANT+
      view of the converter's state. The view's widths make every field fit,
      so neither pack raises. */
  function OnNewData(d: DataSrc): (r: seq<Message>)
    ensures |r| == 2 && r[0].channel == PowerChannel && r[1].channel == SpeedChannel
    ensures DecodePowerPage(r[0].payload) == Some(PowerFields(AntConv.GetEventCount(d), AntConv.GetCadence(d),
                                                               AntConv.GetCumPower(d), AntConv.GetPower(d)))
    ensures DecodeSpeedPage(r[1].payload) == Some(SpeedFields(AntConv.GetEventTimeMs(d), AntConv.GetCumRevCount(d)))
  {
    var power := PowerPage(PowerFields(AntConv.GetEventCount(d), AntConv.GetCadence(d), AntConv.GetCumPower(d), AntConv.GetPower(d)));
    var speed := SpeedPage(SpeedFields(AntConv.GetEventTimeMs(d), AntConv.GetCumRevCount(d)));
    [Message(PowerChannel, power.value), Message(SpeedChannel, speed.value)]
  }
}

=== FILE: base.dfy ===
/** Shared vocabulary of the model: bytes, the Python exceptions the core can
    raise, failure-compatible result types, and Python's `int()` on a number. */
module Base {

  /** One octet of a payload, as Python's `bytes` element. */
  type byte = b: int | 0 <= b < 0x100

  /** The exceptions the modelled code can raise. */
  datatype Error =
    | StructError        // struct.pack/unpack: value out of range or wrong buffer size
    | ValueError         // bytearray.append of a value outside 0..255
    | ZeroDivisionError  // a division by zero

  datatype Option<+T> = None | Some(value: T)

  /** A computation that returns a value or raises. */
  datatype Result<+T> = Ok(value: T) | Err(error: Error) {
    predicate IsFailure() {
      Err?
    }

    function PropagateFailure<U>(): Result<U>
      requires Err?
    {
      Err(error)
    }

    function Extract(): T
      requires Ok?
    {
      value
    }
  }

  /** A statement that returns nothing, or raises. */
  datatype Outcome = Pass | Fail(error: Error)

  /** Python's `int(x)`: truncation toward zero. */
  function Trunc(x: real): (n: int)
    ensures 0.0 <= x ==> n as real <= x < n as real + 1.0
    ensures x < 0.0 ==> n as real - 1.0 < x <= n as real
  {
    if x >= 0.0 then x.Floor else -((-x).Floor)
  }

  /** `int()` leaves a whole number as it is. */
  lemma TruncOfInt(n: int)
    ensures Trunc(n as real) == n
  {
  }

  /** On non-negative numbers `int()` is the floor. */
  lemma TruncIsFloor(x: real)
    requires 0.0 <= x
    ensures Trunc(x) == x.Floor
  {
  }
}

=== FILE: ble_gatt.dfy ===
/** The Bluetooth GATT payloads of the bridge (tx/ble.py): the CSC
    Measurement characteristic 0x2A5B (section 3.1 of the Bluetooth Cycling
    Speed and Cadence Service 1.0), the Cycling Power Measurement
    characteristic 0x2A63 (section 3.1 of the Bluetooth Cycling Power Service
    1.1), the two feature characteristics, and what one tick of the
    transmit loop sends. */
module BleGatt {
  import opened Base
  import opened StructPack
  import opened FixedWidth
  import opened DataSource
  import BleConv

  /** CSC measurement flag bits. */
  const WHEEL_PRESENT: int := 0x01
  const CRANK_PRESENT: int := 0x02
  /** The CSC feature value: wheel and crank revolution data supported. */
  const CSC_FEATURE: int := 0x03
  /** The CP service's measurement and feature flags, both zero. */
  const CP_MEASURE_FLAGS: int := 0x0
  const CP_FEATURE_FLAGS: int := 0x0

  /** One revolution data block: cumulative revolutions and last event time. */
  datatype RevData = RevData(revolutions: int, eventTime: int)

  /** A CSC measurement as a client reads it. */
  datatype CscMeasurement = CscMeasurement(wheel: Option<RevData>, crank: Option<RevData>)

  /** A Cycling Power measurement with no optional fields. */
  datatype CpMeasurement = CpMeasurement(flags: int, power: int)

  /** Field layout of a CSC measurement with the given blocks present. */
  function CscFormat(wheel: bool, crank: bool): seq<Code>
  {
    [U8] + (if wheel then [U32, U16] else []) + (if crank then [U16, U16] else [])
  }

  /** A client's reading of a CSC measurement: flag bits 0 and 1 say which
      blocks follow, the other flag bits are reserved and must be clear, and
      the length must match the flags. */
  function DecodeCsc(p: seq<byte>): Option<CscMeasurement>
  {
    if |p| == 0 || p[0] >= 4 then None
    else
      var wheel := p[0] % 2 == 1;
      var crank := p[0] / 2 == 1;
      var fmt := CscFormat(wheel, crank);
      var x := Unpack(fmt, p);
      if x.Err? then None
      else
        var w := if wheel then Some(RevData(x.value[1], x.value[2])) else None;
        var k := if wheel then 3 else 1;
        var c := if crank then Some(RevData(x.value[k], x.value[k + 1])) else None;
        Some(CscMeasurement(w, c))
  }

  /** `CSCService.notify_all`: struct.pack("<BIHHH", ...), every field
      masked to its width first. */
  function NotifyAll(wheelRev: int, crankRev: int, wEventMs: int, cEventMs: int): (p: seq<byte>)
    ensures |p| == 11 && p[0] == WHEEL_PRESENT + CRANK_PRESENT
  {
    var fmt := [U8, U32, U16, U16, U16];
    var vals := [CRANK_PRESENT + WHEEL_PRESENT, wheelRev % TWO32, wEventMs % TWO16, crankRev % TWO16, cEventMs % TWO16];
    var r := Pack(fmt, vals);
    assert r.Ok?;
    PackedU8(fmt, vals, 0, 0);
    r.value
  }

  /** A client reads back both blocks, each cut to its field's width. */
  lemma NotifyAllDecodes(wheelRev: int, crankRev: int, wEventMs: int, cEventMs: int)
    ensures DecodeCsc(NotifyAll(wheelRev, crankRev, wEventMs, cEventMs)) ==
      Some(CscMeasurement(Some(RevData(wheelRev % TWO32, wEventMs % TWO16)),
                          Some(RevData(crankRev % TWO16, cEventMs % TWO16))))
  {
    var fmt := [U8, U32, U16, U16, U16];
    var vals := [CRANK_PRESENT + WHEEL_PRESENT, wheelRev % TWO32, wEventMs % TWO16, crankRev % TWO16, cEventMs % TWO16];
    UnpackPack(fmt, vals);
    assert CscFormat(true, true) == fmt;
  }

  /** `CSCService.notify_crank`: struct.pack("<BHH", ...). */
  function NotifyCrank(wheelRev: int, crankRev: int, wEventMs: int, cEventMs: int): (p: seq<byte>)
    ensures |p| == 5 && p[0] == CRANK_PRESENT
  {
    var fmt := [U8, U16, U16];
    var vals := [CRANK_PRESENT, crankRev % TWO16, cEventMs % TWO16];
    var r := Pack(fmt, vals);
    assert r.Ok?;
    PackedU8(fmt, vals, 0, 0);
    r.value
  }

  /** A client reads back the crank block alone. */
  lemma NotifyCrankDecodes(wheelRev: int, crankRev: int, wEventMs: int, cEventMs: int)
    ensures DecodeCsc(NotifyCrank(wheelRev, crankRev, wEventMs, cEventMs)) ==
      Some(CscMeasurement(None, Some(RevData(crankRev % TWO16, cEventMs % TWO16))))
  {
    var fmt := [U8, U16, U16];
    var vals := [CRANK_PRESENT, crankRev % TWO16, cEventMs % TWO16];
    UnpackPack(fmt, vals);
    assert CscFormat(false, true) == fmt;
  }

  /** `CSCService.notify_wheel`: struct.pack("<BIH", ...). */
  function NotifyWheel(wheelRev: int, crankRev: int, wEventMs: int, cEventMs: int): (p: seq<byte>)
    ensures |p| == 7 && p[0] == WHEEL_PRESENT
  {
    var fmt := [U8, U32, U16];
    var vals := [WHEEL_PRESENT, wheelRev % TWO32, wEventMs % TWO16];
    var r := Pack(fmt, vals);
    assert r.Ok?;
    PackedU8(fmt, vals, 0, 0);
    r.value
  }

  /** A client reads back the wheel block alone. */
  lemma NotifyWheelDecodes(wheelRev: int, crankRev: int, wEventMs: int, cEventMs: int)
    ensures DecodeCsc(NotifyWheel(wheelRev, crankRev, wEventMs, cEventMs)) ==
      Some(CscMeasurement(Some(RevData(wheelRev % TWO32, wEventMs % TWO16)), None))
  {
    var fmt := [U8, U32, U16];
    var vals := [WHEEL_PRESENT, wheelRev % TWO32, wEventMs % TWO16];
    UnpackPack(fmt, vals);
    assert CscFormat(true, false) == fmt;
  }

  /** In every CSC payload the length is fixed by the flags: one flag byte,
      six bytes of wheel data when bit 0 is set, four of crank data when
      bit 1 is set. */
  lemma CscLengthMatchesFlags(p: seq<byte>)
    requires DecodeCsc(p).Some?
    ensures |p| == 1 + 6 * (p[0] % 2) + 4 * ((p[0] / 2) % 2)
  {
    var wheel := p[0] % 2 == 1;
    var crank := p[0] / 2 == 1;
    var fmt := CscFormat(wheel, crank);
    assert CalcSize([U32, U16]) == 6 && CalcSize([U16, U16]) == 4;
    CalcSizeAppend([U8], if wheel then [U32, U16] else []);
    CalcSizeAppend([U8] + (if wheel then [U32, U16] else []), if crank then [U16, U16] else []);
  }

  lemma {:induction false} CalcSizeAppend(a: seq<Code>, b: seq<Code>)
    ensures CalcSize(a + b) == CalcSize(a) + CalcSize(b)
  {
    if |a| > 0 {
      assert (a + b)[0] == a[0];
      assert (a + b)[1..] == a[1..] + b;
      CalcSizeAppend(a[1..], b);
    } else {
      assert a + b == b;
    }
  }

  /** Every measurement with both blocks is what notify_all sends for it. */
  lemma NotifyAllCovers(p: seq<byte>)
    requires DecodeCsc(p).Some? && DecodeCsc(p).value.wheel.Some? && DecodeCsc(p).value.crank.Some?
    ensures var m := DecodeCsc(p).value;
      NotifyAll(m.wheel.value.revolutions, m.crank.value.revolutions, m.wheel.value.eventTime, m.crank.value.eventTime) == p
  {
    var fmt := CscFormat(true, true);
    assert fmt == [U8, U32, U16, U16, U16];
    assert p[0] == 3;
    UnpackedU8(fmt, p, 0, 0);
    PackUnpack(fmt, p);
    var x := Unpack(fmt, p).value;
    assert [x[0], x[1] % TWO32, x[2] % TWO16, x[3] % TWO16, x[4] % TWO16] == x;
  }

  /** `CPService.notify_new_rate`: struct.pack("<Hh", flags, power & 0x7FFF).
      The other arguments are not sent. */
  function NotifyNewRate(power: int, wEventMs: int, cEventMs: int, crankRev: int, wheelRev: int): (p: seq<byte>)
    ensures |p| == 4 && p[0] == 0 && p[1] == 0
  {
    var fmt := [U16, I16];
    var vals := [CP_MEASURE_FLAGS, power % 0x8000];
    var r := Pack(fmt, vals);
    assert r.Ok?;
    PackedU16(fmt, vals, 0, 0);
    r.value
  }

  /** A client reads back zero flags and the power cut to 15 bits, so never
      a negative value. */
  lemma NotifyNewRateDecodes(power: int, wEventMs: int, cEventMs: int, crankRev: int, wheelRev: int)
    ensures DecodeCp(NotifyNewRate(power, wEventMs, cEventMs, crankRev, wheelRev)) ==
      Some(CpMeasurement(CP_MEASURE_FLAGS, power % 0x8000))
  {
    UnpackPack([U16, I16], [CP_MEASURE_FLAGS, power % 0x8000]);
  }

  /** A client's reading of a power measurement whose flags announce no
      optional field. */
  function DecodeCp(p: seq<byte>): Option<CpMeasurement>
  {
    var x := Unpack([U16, I16], p);
    if x.Err? || x.value[0] != CP_MEASURE_FLAGS then None
    else Some(CpMeasurement(x.value[0], x.value[1]))
  }

  /** The sent power is never negative, and every non-negative reading is
      what notify_new_rate sends for it. */
  lemma CpPowerNonNegative(p: seq<byte>)
    requires DecodeCp(p).Some? && DecodeCp(p).value.power >= 0
    ensures NotifyNewRate(DecodeCp(p).value.power, 0, 0, 0, 0) == p
  {
    var fmt := [U16, I16];
    PackUnpack(fmt, p);
    var x := Unpack(fmt, p).value;
    assert [x[0], x[1] % 0x8000] == x;
  }

  /** `CSCService.csc_feature`: struct.pack("<H", feature). */
  function CscFeature(): (p: seq<byte>)
    ensures |p| == 2 && DecodeField(U16, p) == CSC_FEATURE
  {
    var r := Pack([U16], [CSC_FEATURE]);
    assert r.Ok?;
    UnpackPack([U16], [CSC_FEATURE]);
    UnpackAt([U16], r.value, 0);
    assert r.value[0..2] == r.value;
    r.value
  }

  /** `CPService.cp_feature`: struct.pack("<I", feature_flags). */
  function CpFeature(): (p: seq<byte>)
    ensures |p| == 4 && DecodeField(U32, p) == CP_FEATURE_FLAGS
  {
    var r := Pack([U32], [CP_FEATURE_FLAGS]);
    assert r.Ok?;
    UnpackPack([U32], [CP_FEATURE_FLAGS]);
    UnpackAt([U32], r.value, 0);
    assert r.value[0..4] == r.value;
    r.value
  }

  /** The features read back as [0x03, 0x00] and four zero bytes. Every
      CSC notification sets only flag bits the CSC feature 0x03 advertises
      (its flags are below 4), the crank-only one clears the wheel bit and
      the wheel-only one the crank bit; no power measurement announces a
      field the CP feature leaves out. */
  lemma FeaturesMatchMeasurements(w: int, c: int, we: int, ce: int, power: int)
    ensures CscFeature() == [0x03, 0x00]
    ensures CpFeature() == [0, 0, 0, 0]
    ensures NotifyAll(w, c, we, ce)[0] == CSC_FEATURE
    ensures NotifyCrank(w, c, we, ce)[0] < 4 && NotifyWheel(w, c, we, ce)[0] < 4
    ensures NotifyCrank(w, c, we, ce)[0] % 2 == 0 && NotifyWheel(w, c, we, ce)[0] / 2 == 0
    ensures DecodeCp(NotifyNewRate(power, we, ce, c, w)).Some?
    ensures DecodeCp(NotifyNewRate(power, we, ce, c, w)).value.flags == CP_FEATURE_FLAGS
  {
    FieldBytesRoundTrip(U16, CscFeature());
    EncodeU16(CSC_FEATURE);
    FieldBytesRoundTrip(U32, CpFeature());
    assert ToLittleEndian(0, 4) == [0, 0, 0, 0];
    NotifyNewRateDecodes(power, we, ce, c, w);
  }

  datatype Notification = CscChanged(payload: seq<byte>) | CpChanged(payload: seq<byte>)

  /** One pass of `BLETx.loop` after its sleep: nothing when the source has
      no data, otherwise one CSC measurement with every block and then one
      power measurement, all from the Bluetooth view of the source. */
  function Tick(noData: bool, d: DataSrc): (r: seq<Notification>)
    ensures noData <==> r == []
    ensures !noData ==> |r| == 2 && r[0].CscChanged? && r[1].CpChanged?
  {
    if noData then []
    else
      var wr := BleConv.GetWr(d);
      var cr := BleConv.GetCr(d);
      var wev := BleConv.GetWev(d);
      var cev := BleConv.GetCev(d);
      var power := BleConv.GetPower(d);
      [CscChanged(NotifyAll(wr, cr, wev, cev)), CpChanged(NotifyNewRate(power, wev, cev, cr, wr))]
  }

  /** What a client reads from one tick with data: the full CSC block from
      the Bluetooth view of the source, and the source's power cut to
      15 bits, never negative. */
  lemma TickPayloads(d: DataSrc)
    ensures var r := Tick(false, d);
      && DecodeCsc(r[0].payload) ==
           Some(CscMeasurement(Some(RevData(BleConv.GetWr(d), BleConv.GetWev(d))),
                               Some(RevData(BleConv.GetCr(d), BleConv.GetCev(d)))))
      && DecodeCp(r[1].payload) == Some(CpMeasurement(0, Trunc(d.power) % 0x8000))
  {
    TickCsc(d);
    TickCp(d);
  }

  /** The CSC half of `TickPayloads`. */
  lemma TickCsc(d: DataSrc)
    ensures DecodeCsc(Tick(false, d)[0].payload) ==
      Some(CscMeasurement(Some(RevData(BleConv.GetWr(d), BleConv.GetWev(d))),
                          Some(RevData(BleConv.GetCr(d), BleConv.GetCev(d)))))
  {
    NotifyAllDecodes(BleConv.GetWr(d), BleConv.GetCr(d), BleConv.GetWev(d), BleConv.GetCev(d));
  }

  /** The cycling power half of `TickPayloads`. */
  lemma TickCp(d: DataSrc)
    ensures DecodeCp(Tick(false, d)[1].payload) == Some(CpMeasurement(0, Trunc(d.power) % 0x8000))
  {
    NotifyNewRateDecodes(BleConv.GetPower(d), BleConv.GetWev(d), BleConv.GetCev(d), BleConv.GetCr(d), BleConv.GetWr(d));
    PowerMask(Trunc(d.power));
  }

  /** The 16-bit view, then the 15-bit mask, is the 15-bit mask. */
  lemma PowerMask(n: int)
    ensures (n % TWO16) % 0x8000 == n % 0x8000
  {
    var q := n / TWO16;
    assert n % TWO16 == n - 0x8000 * (2 * q);
  }
}

=== FILE: conv.dfy ===
/** DataSrc (util.py): the plain record a bike source fills in and the
    converter views read. Python leaves each field an int or a float; the
    model holds them all as reals. */
module DataSource {

  datatype DataSrc = DataSrc(
    cr: real,                 // crank revolutions
    cev: real,                // crank event time, 1/1024 s
    wr: real,                 // wheel revolutions
    wev: real,                // wheel event time, 1/1024 s
    power: real,              // instantaneous power, W
    cadence: real,            // RPM
    powerEventCounts: real,   // power events so far
    cumPower: real,           // accumulated power, W
    speed: real)              // m/s

  /** `__init__`: every field zero. */
  const Fresh: DataSrc := DataSrc(0.0, 0.0, 0.0, 0.0, 0.0, 0.0, 0.0, 0.0, 0.0)
}

/** BLEConv (tx/conv.py): the Bluetooth view of a DataSrc. Each accessor is a
    pure read cut to the width of its GATT field. */
module BleConv {
  import opened Base
  import opened FixedWidth
  import opened DataSource

  /** Cumulative wheel revolutions, u32. */
  function GetWr(d: DataSrc): (r: int)
    ensures 0 <= r < TWO32 && (Trunc(d.wr) - r) % TWO32 == 0
  {
    UInt32(d.wr)
  }

  /** Cumulative crank revolutions, u16. */
  function GetCr(d: DataSrc): (r: int)
    ensures 0 <= r < TWO16 && (Trunc(d.cr) - r) % TWO16 == 0
  {
    UInt16(d.cr)
  }

  /** Last wheel event time, u16. */
  function GetWev(d: DataSrc): (r: int)
    ensures 0 <= r < TWO16 && (Trunc(d.wev) - r) % TWO16 == 0
  {
    UInt16(d.wev)
  }

  /** Last crank event time, u16. */
  function GetCev(d: DataSrc): (r: int)
    ensures 0 <= r < TWO16 && (Trunc(d.cev) - r) % TWO16 == 0
  {
    UInt16(d.cev)
  }

  /** Instantaneous power, u16. */
  function GetPower(d: DataSrc): (r: int)
    ensures 0 <= r < TWO16 && (Trunc(d.power) - r) % TWO16 == 0
  {
    UInt16(d.power)
  }
}

/** ANTConv (tx/conv.py): the ANT+ view of a DataSrc. */
module AntConv {
  import opened Base
  import opened FixedWidth
  import opened DataSource

  /** Power event count, u8. */
  function GetEventCount(d: DataSrc): (r: int)
    ensures 0 <= r < TWO8 && (Trunc(d.powerEventCounts) - r) % TWO8 == 0
  {
    UInt8(d.powerEventCounts)
  }

  /** Accumulated power, u16. */
  function GetCumPower(d: DataSrc): (r: int)
    ensures 0 <= r < TWO16 && (Trunc(d.cumPower) - r) % TWO16 == 0
  {
    UInt16(d.cumPower)
  }

  /** Instantaneous cadence, u8. */
  function GetCadence(d: DataSrc): (r: int)
    ensures 0 <= r < TWO8 && (Trunc(d.cadence) - r) % TWO8 == 0
  {
    UInt8(d.cadence)
  }

  /** Instantaneous power, u16. */
  function GetPower(d: DataSrc): (r: int)
    ensures 0 <= r < TWO16 && (Trunc(d.power) - r) % TWO16 == 0
  {
    UInt16(d.power)
  }

  /** Cumulative wheel revolutions, u16. */
  function GetCumRevCount(d: DataSrc): (r: int)
    ensures 0 <= r < TWO16 && (Trunc(d.wr) - r) % TWO16 == 0
  {
    UInt16(d.wr)
  }

  /** Last wheel event time, u16. */
  function GetEventTimeMs(d: DataSrc): (r: int)
    ensures 0 <= r < TWO16 && (Trunc(d.wev) - r) % TWO16 == 0
  {
    UInt16(d.wev)
  }
}

/** Facts relating the two views. */
module ConvViews {
  import opened FixedWidth
  import opened DataSource
  import BleConv
  import AntConv

  /** Both views read the wheel fields: the ANT+ revolution count is the
      Bluetooth one cut to 16 bits, the event times and powers agree. */
  lemma WheelViewsAgree(d: DataSrc)
    ensures AntConv.GetCumRevCount(d) == BleConv.GetWr(d) % TWO16
    ensures AntConv.GetEventTimeMs(d) == BleConv.GetWev(d)
    ensures AntConv.GetPower(d) == BleConv.GetPower(d)
  {
    UInt16OfUInt32(d.wr);
    UInt16OfInt(BleConv.GetWr(d));
  }

  /** Cumulative power wraps modulo 2^16: 70000 W-events read as 4464. */
  lemma CumPowerWraps(d: DataSrc)
    requires d.cumPower == 70000.0
    ensures AntConv.GetCumPower(d) == 4464
  {
  }

  /** A fresh source reads zero on every accessor. */
  lemma FreshReadsZero()
    ensures BleConv.GetWr(Fresh) == 0 && BleConv.GetCr(Fresh) == 0 && BleConv.GetWev(Fresh) == 0
    ensures BleConv.GetCev(Fresh) == 0 && BleConv.GetPower(Fresh) == 0
    ensures AntConv.GetEventCount(Fresh) == 0 && AntConv.GetCumPower(Fresh) == 0 && AntConv.GetCadence(Fresh) == 0
    ensures AntConv.GetPower(Fresh) == 0 && AntConv.GetCumRevCount(Fresh) == 0 && AntConv.GetEventTimeMs(Fresh) == 0
  {
  }
}

=== FILE: count_generator.dfy ===
/** CountGenerator (util.py): turns a growing real revolution total into an
    integer revolution count and the interpolated time, in 1/1024 s, at which
    the last whole revolution completed. */
module Accumulator {
  import opened Base
  import opened EventTime

  datatype CountGenerator = CountGenerator(
    valFloat: real,     // running revolution total
    valInt: int,        // whole revolutions reported so far
    eventTimeMs: real,  // time of the last reported revolution, 1/1024 s
    notify: bool,       // set at construction and never changed
    rpm: real)          // rate estimate of the last successful round

  /** The generator after a call, and whether the call raised. A raising
      call leaves behind whatever it had already assigned. */
  datatype Stepped = Stepped(gen: CountGenerator, outcome: Outcome)

  /** The count is the floor of the non-negative total. */
  ghost predicate Inv(g: CountGenerator)
  {
    0 <= g.valInt && g.valInt as real <= g.valFloat < g.valInt as real + 1.0
  }

  /** Revolutions accumulated but not yet reported. */
  function Pending(g: CountGenerator): real
  {
    g.valFloat - g.valInt as real
  }

  /** `__init__`: everything zero. */
  function Init(): (g: CountGenerator)
    ensures Inv(g) && g.valInt == 0 && g.eventTimeMs == 0.0 && !g.notify
    ensures g.valFloat == 0.0 && g.rpm == 0.0
  {
    CountGenerator(0.0, 0, 0.0, false, 0.0)
  }

  /** `round(now)`: estimate the rate, then report any completed revolution.
      The rate estimate divides by now - eventTimeMs / 1024 and raises
      ZeroDivisionError, changing nothing, when that is zero. */
  function Round(g: CountGenerator, now: real): (r: Stepped)
    ensures r.gen.valFloat == g.valFloat && r.gen.notify == g.notify
    ensures r.outcome.Fail? <==> now * TICKS_PER_SECOND == g.eventTimeMs
    ensures r.outcome.Fail? ==> r.gen == g && r.outcome.error == ZeroDivisionError
    ensures Pending(g) < 1.0 ==> r.gen.valInt == g.valInt && r.gen.eventTimeMs == g.eventTimeMs
    ensures r.outcome.Pass? && Pending(g) >= 1.0 ==> r.gen.valInt > g.valInt
    ensures r.gen.valInt == g.valInt ==> r.gen.eventTimeMs == g.eventTimeMs
    ensures r.outcome.Pass? && Pending(g) >= 1.0 && g.eventTimeMs < now * TICKS_PER_SECOND ==>
              g.eventTimeMs < r.gen.eventTimeMs <= now * TICKS_PER_SECOND
    ensures r.outcome.Pass? && Pending(g) >= 1.0 && Pending(g) == Trunc(Pending(g)) as real ==>
              r.gen.eventTimeMs == now * TICKS_PER_SECOND
    ensures r.outcome.Pass? && Pending(g) >= 1.0 ==>
              (r.gen.eventTimeMs - g.eventTimeMs) * Pending(g) ==
              (now * TICKS_PER_SECOND - g.eventTimeMs) * Trunc(Pending(g)) as real
    ensures r.outcome.Pass? ==>
              r.gen.rpm * (now - g.eventTimeMs / TICKS_PER_SECOND) == Pending(g) * 60.0
    ensures r.outcome.Pass? && 0 <= g.valInt && g.valInt as real <= g.valFloat ==> Inv(r.gen)
  {
    var diff := Pending(g);
    var elapsed := now - g.eventTimeMs / TICKS_PER_SECOND;
    if elapsed == 0.0 then
      Stepped(g, Fail(ZeroDivisionError))
    else
      var rated := g.(rpm := diff / elapsed * 60.0);
      if diff >= 1.0 then
        Stepped(rated.(eventTimeMs := Interpolate(g.eventTimeMs, now, diff), valInt := Trunc(g.valFloat)), Pass)
      else
        Stepped(rated, Pass)
  }

  /** `add(inc, now)`: grow the total by inc, then round. */
  function Add(g: CountGenerator, inc: real, now: real): (r: Stepped)
    ensures r.gen.valFloat == g.valFloat + inc
    ensures r.gen.valInt >= g.valInt
    ensures r.outcome.Fail? <==> now * TICKS_PER_SECOND == g.eventTimeMs
    ensures Inv(g) && 0.0 <= inc && r.outcome.Pass? ==> Inv(r.gen)
  {
    Round(g.(valFloat := g.valFloat + inc), now)
  }

  /** `set(val, now)`: overwrite the total, then round. */
  function Set(g: CountGenerator, val: real, now: real): (r: Stepped)
    ensures r.gen.valFloat == val
    ensures r.gen.valInt >= g.valInt
    ensures r.outcome.Fail? <==> now * TICKS_PER_SECOND == g.eventTimeMs
    ensures Inv(g) && g.valInt as real <= val && r.outcome.Pass? ==> Inv(r.gen)
  {
    Round(g.(valFloat := val), now)
  }

  /** `get()`: the count and the event time, unmasked. */
  function Get(g: CountGenerator): (int, real)
  {
    (g.valInt, g.eventTimeMs)
  }

  /** Under the invariant, the count read is the floor of the total. */
  lemma GetReadsFloor(g: CountGenerator)
    requires Inv(g)
    ensures Get(g).0 == g.valFloat.Floor
  {
  }

  /** Setting the total is adding the difference. */
  lemma SetIsAddOfDifference(g: CountGenerator, val: real, now: real)
    ensures Set(g, val, now) == Add(g, val - g.valFloat, now)
  {
  }

  /** One call of `add`. */
  datatype Sample = Sample(inc: real, now: real)

  /** A sequence of `add` calls, stopping at the first that raises. */
  function Run(g: CountGenerator, samples: seq<Sample>): Stepped
  {
    if |samples| == 0 then Stepped(g, Pass)
    else
      var before := Run(g, samples[..|samples| - 1]);
      if before.outcome.Fail? then before
      else Add(before.gen, samples[|samples| - 1].inc, samples[|samples| - 1].now)
  }

  predicate NonNegative(samples: seq<Sample>)
  {
    forall i :: 0 <= i < |samples| ==> 0.0 <= samples[i].inc
  }

  /** With non-negative increments the count stays the floor of the total
      after every call that returned. */
  lemma {:induction false} RunKeepsInv(g: CountGenerator, samples: seq<Sample>)
    requires Inv(g) && NonNegative(samples)
    ensures Run(g, samples).outcome.Pass? ==> Inv(Run(g, samples).gen)
  {
    if |samples| > 0 {
      RunKeepsInv(g, samples[..|samples| - 1]);
    }
  }

  /** The reported count never decreases along a run, whatever the
      increments: a longer prefix never reports fewer revolutions. */
  lemma {:induction false} RunCountMonotone(g: CountGenerator, samples: seq<Sample>, i: nat, j: nat)
    requires i <= j <= |samples|
    ensures Run(g, samples[..i]).gen.valInt <= Run(g, samples[..j]).gen.valInt
  {
    if i < j {
      RunCountMonotone(g, samples, i, j - 1);
      assert samples[..j][..j - 1] == samples[..j - 1];
    }
  }

  /** Worked example: 0.6 revolutions at t = 1 s report nothing; 0.6 more at
      t = 2 s complete one revolution, dated 5/6 of the way from the first
      sample to the second. */
  lemma TwoSamplesExample()
    ensures Add(Init(), 0.6, 1.0).outcome == Pass
    ensures Get(Add(Init(), 0.6, 1.0).gen) == (0, 0.0)
    ensures Add(Add(Init(), 0.6, 1.0).gen, 0.6, 2.0).outcome == Pass
    ensures Get(Add(Add(Init(), 0.6, 1.0).gen, 0.6, 2.0).gen) == (1, 5120.0 / 3.0)
    ensures 1024.0 < Get(Add(Add(Init(), 0.6, 1.0).gen, 0.6, 2.0).gen).1 < 2048.0
  {
    var g1 := Add(Init(), 0.6, 1.0).gen;
    assert g1.valFloat == 0.6 && g1.valInt == 0 && g1.eventTimeMs == 0.0;
    assert Trunc(1.2) == 1;
    assert Trunc(0.6 + 0.6) == 1;
  }
}

=== FILE: event_time.dfy ===
/** The revolution-boundary interpolation shared by CountGenerator.round
    (util.py) and MockDataRx.add (ble_tx_mock.py). Times are in 1/1024 s.
    When diff >= 1 whole revolutions are pending, the last one is taken to
    have completed a fraction (diff - int(diff)) / diff of the way back from
    now to the previous event, assuming a constant rate in between. */
module EventTime {
  import opened Base

  const TICKS_PER_SECOND: real := 1024.0

  function Interpolate(last: real, now: real, diff: real): (t: real)
    requires diff >= 1.0
    ensures last < now * TICKS_PER_SECOND ==> last < t <= now * TICKS_PER_SECOND
    ensures now * TICKS_PER_SECOND <= last ==> now * TICKS_PER_SECOND <= t <= last
    ensures diff == Trunc(diff) as real ==> t == now * TICKS_PER_SECOND
    // At a steady rate of diff revolutions over (last, now], t is the moment
    // the count reached int(diff): the time elapsed to t is that share of it.
    ensures (t - last) * diff == (now * TICKS_PER_SECOND - last) * Trunc(diff) as real
  {
    var ticks := now * TICKS_PER_SECOND;
    var frac := diff - Trunc(diff) as real;
    var back := (ticks - last) * frac / diff;
    assert 0.0 <= frac / diff < 1.0 by {
      assert 1 <= Trunc(diff);
      assert 0.0 <= frac < diff;
    }
    assert back == (ticks - last) * (frac / diff);
    ScaledBelow(ticks - last, frac / diff);
    ShareOfGap(ticks - last, frac, diff);
    ticks - back
  }

  /** Going back the share frac / diff of a gap g leaves the share
      (diff - frac) / diff of it. */
  lemma ShareOfGap(g: real, frac: real, diff: real)
    requires diff > 0.0
    ensures (g - g * frac / diff) * diff == g * (diff - frac)
  {
    assert g * frac / diff * diff == g * frac;
  }

  /** A fraction in [0, 1) of g lies between 0 (inclusive) and g. */
  lemma ScaledBelow(g: real, k: real)
    requires 0.0 <= k < 1.0
    ensures 0.0 < g ==> 0.0 <= g * k < g
    ensures g < 0.0 ==> g < g * k <= 0.0
  {
    if g != 0.0 {
      assert g - g * k == g * (1.0 - k);
    }
  }
}

=== FILE: fixed_width.dfy ===
/** The truncating integer views `uint8`, `uint16` and `uint32`:
    `int(val) & mask`. Python's `&` on a negative int acts on its infinite
    two's-complement form, which is Dafny's Euclidean `%` by 2^k. */
module FixedWidth {
  import opened Base

  const TWO8: int := 0x100
  const TWO16: int := 0x1_0000
  const TWO32: int := 0x1_0000_0000

  function UInt8(val: real): (r: int)
    ensures 0 <= r < TWO8
    ensures (Trunc(val) - r) % TWO8 == 0
    ensures 0 <= Trunc(val) < TWO8 ==> r == Trunc(val)
  {
    Trunc(val) % TWO8
  }

  function UInt16(val: real): (r: int)
    ensures 0 <= r < TWO16
    ensures (Trunc(val) - r) % TWO16 == 0
    ensures 0 <= Trunc(val) < TWO16 ==> r == Trunc(val)
  {
    Trunc(val) % TWO16
  }

  function UInt32(val: real): (r: int)
    ensures 0 <= r < TWO32
    ensures (Trunc(val) - r) % TWO32 == 0
    ensures 0 <= Trunc(val) < TWO32 ==> r == Trunc(val)
  {
    Trunc(val) % TWO32
  }

  /** A remainder is the unique value in range that differs from the
      number by a multiple of the modulus. */
  lemma Remainder16(x: int, t: int, r: int)
    requires x == TWO16 * t + r && 0 <= r < TWO16
    ensures x % TWO16 == r
  {
  }

  lemma Remainder8(x: int, t: int, r: int)
    requires x == TWO8 * t + r && 0 <= r < TWO8
    ensures x % TWO8 == r
  {
  }

  /** 2^16 divides 2^32, so the 16-bit remainder survives the 32-bit one. */
  lemma NestedRemainder32(n: int)
    ensures (n % TWO32) % TWO16 == n % TWO16
  {
    var q := n / TWO32;
    var p := n / TWO16;
    assert n % TWO32 == TWO16 * (p - TWO16 * q) + n % TWO16;
    Remainder16(n % TWO32, p - TWO16 * q, n % TWO16);
  }

  /** 2^8 divides 2^16, so the 8-bit remainder survives the 16-bit one. */
  lemma NestedRemainder16(n: int)
    ensures (n % TWO16) % TWO8 == n % TWO8
  {
    var q := n / TWO16;
    var p := n / TWO8;
    assert n % TWO16 == TWO8 * (p - TWO8 * q) + n % TWO8;
    Remainder8(n % TWO16, p - TWO8 * q, n % TWO8);
  }

  /** On a whole number the 16-bit view is the remainder modulo 2^16. */
  lemma UInt16OfInt(n: int)
    ensures UInt16(n as real) == n % TWO16
  {
    TruncOfInt(n);
  }

  /** Truncating twice to the same width is truncating once. */
  lemma UInt16Idempotent(val: real)
    ensures UInt16(UInt16(val) as real) == UInt16(val)
  {
    TruncOfInt(UInt16(val));
  }

  /** Truncating to 32 bits, then to 16, is truncating to 16. */
  lemma UInt16OfUInt32(val: real)
    ensures UInt16(UInt32(val) as real) == UInt16(val)
  {
    TruncOfInt(UInt32(val));
    NestedRemainder32(Trunc(val));
  }

  /** Truncating to 16 bits, then to 8, is truncating to 8. */
  lemma UInt8OfUInt16(val: real)
    ensures UInt8(UInt16(val) as real) == UInt8(val)
  {
    TruncOfInt(UInt16(val));
    NestedRemainder16(Trunc(val));
  }

  /** Wrapping is modulo, not saturating: 70000 reads back as 4464. */
  lemma WrapsNotSaturates()
    ensures UInt16(70000.0) == 4464
    ensures UInt8(256.0) == 0
    ensures UInt16(-1.0) == 0xFFFF
  {
  }
}

=== FILE: keiser_bike.dfy ===
/** KeiserBike.parse_keiser_msd (bike/keiser.py). It also requires the data
    type byte to be 0 before touching anything, so a rejected record leaves
    every attribute as it was. */
module KeiserBike {
  import opened Base
  import opened KeiserFrame

  function Parse(s: Readings, msd: map<int, seq<byte>>): (r: Parsed)
    ensures r.accepted <==> Matches(msd, s.bikeId) && msd[MSD_KEY][2] == 0
    ensures !r.accepted ==> r.state == s
    ensures r.accepted ==> Decoded(r.state, msd[MSD_KEY]) && r.state.dataType == 0
    ensures r.state.bikeId == s.bikeId
  {
    if Matches(msd, s.bikeId) && msd[MSD_KEY][2] == 0 then
      var v := msd[MSD_KEY];
      ApplyDecode(v);
      Parsed(Apply(Decode(v)), true)
    else
      Parsed(s, false)
  }
}

/** How the two parsers relate. */
module KeiserParsers {
  import opened Base
  import opened KeiserFrame
  import KeiserListener
  import KeiserBike

  /** Both accept exactly the same advertisements, and agree on the result
      unless the record has the right id but a non-zero data type. */
  lemma SameAcceptance(s: Readings, msd: map<int, seq<byte>>)
    ensures KeiserListener.Parse(s, msd).accepted == KeiserBike.Parse(s, msd).accepted
    ensures !(Matches(msd, s.bikeId) && msd[MSD_KEY][2] != 0) ==>
              KeiserListener.Parse(s, msd) == KeiserBike.Parse(s, msd)
  {
  }

  /** On a record with the right id and a non-zero data type both reject,
      but only the bike keeps its previous readings: the listener is left
      holding the decoded non-standard record. */
  lemma RejectedRecordDiffers(s: Readings, msd: map<int, seq<byte>>)
    requires Matches(msd, s.bikeId) && msd[MSD_KEY][2] != 0
    ensures !KeiserListener.Parse(s, msd).accepted && !KeiserBike.Parse(s, msd).accepted
    ensures KeiserBike.Parse(s, msd).state == s
    ensures KeiserListener.Parse(s, msd).state.dataType != 0
    ensures s.dataType == 0 ==> KeiserListener.Parse(s, msd).state != s
  {
  }

  /** A 16-byte record, or one for another bike, is dropped by both. */
  lemma DropsMalformed(s: Readings, msd: map<int, seq<byte>>)
    requires MSD_KEY in msd
    requires |msd[MSD_KEY]| == 16 || (|msd[MSD_KEY]| == FRAME_LEN && msd[MSD_KEY][3] as int != s.bikeId)
    ensures KeiserListener.Parse(s, msd) == Parsed(s, false)
    ensures KeiserBike.Parse(s, msd) == Parsed(s, false)
  {
  }
}

=== FILE: keiser_frame.dfy ===
/** The Keiser M-series manufacturer-data record that both parsers decode
    (keiser.py, bike/keiser.py): 17 bytes under manufacturer key 0x0102,
    unpacked with the struct format "<BBBBHHHHBBHB". */
module KeiserFrame {
  import opened Base
  import opened StructPack

  /** Key of the Keiser record in the advertisement's manufacturer data. */
  const MSD_KEY: int := 0x0102
  /** Length of the record. */
  const FRAME_LEN: nat := 17
  /** "<BBB" + "BHHH" + "HBBHB". */
  const FORMAT: seq<Code> := [U8, U8, U8, U8, U16, U16, U16, U16, U8, U8, U16, U8]

  /** The raw fields in unpack order. Cadence and heart rate are in tenths;
      the top bit of distanceRaw is the unit flag. */
  datatype Frame = Frame(
    versionMajor: int, versionMinor: int, dataType: int, equipmentId: int,
    cadenceTenths: int, heartRateTenths: int, power: int, calories: int,
    minutes: int, seconds: int, distanceRaw: int, gear: int)

  function Fields(f: Frame): seq<int>
  {
    [f.versionMajor, f.versionMinor, f.dataType, f.equipmentId,
     f.cadenceTenths, f.heartRateTenths, f.power, f.calories,
     f.minutes, f.seconds, f.distanceRaw, f.gear]
  }

  /** Every field fits the width the format gives it. */
  predicate Valid(f: Frame)
  {
    && 0 <= f.versionMajor < 0x100 && 0 <= f.versionMinor < 0x100
    && 0 <= f.dataType < 0x100 && 0 <= f.equipmentId < 0x100
    && 0 <= f.cadenceTenths < 0x1_0000 && 0 <= f.heartRateTenths < 0x1_0000
    && 0 <= f.power < 0x1_0000 && 0 <= f.calories < 0x1_0000
    && 0 <= f.minutes < 0x100 && 0 <= f.seconds < 0x100
    && 0 <= f.distanceRaw < 0x1_0000 && 0 <= f.gear < 0x100
  }

  lemma FormatSize()
    ensures CalcSize(FORMAT) == FRAME_LEN && |FORMAT| == 12
  {
    LastOffsets();
    OffsetNext(FORMAT, 11);
    OffsetEnd(FORMAT);
  }

  lemma HeaderOffsets()
    ensures Offset(FORMAT, 0) == 0 && Offset(FORMAT, 1) == 1 && Offset(FORMAT, 2) == 2
    ensures Offset(FORMAT, 3) == 3
  {
  }

  lemma MeasurementOffsets()
    ensures Offset(FORMAT, 4) == 4 && Offset(FORMAT, 5) == 6 && Offset(FORMAT, 6) == 8
    ensures Offset(FORMAT, 7) == 10
  {
    HeaderOffsets();
    OffsetNext(FORMAT, 3);
    OffsetNext(FORMAT, 4);
    OffsetNext(FORMAT, 5);
    OffsetNext(FORMAT, 6);
  }

  lemma TrailerOffsets()
    ensures Offset(FORMAT, 8) == 12 && Offset(FORMAT, 9) == 13
  {
    MeasurementOffsets();
    OffsetNext(FORMAT, 7);
    OffsetNext(FORMAT, 8);
  }

  lemma LastOffsets()
    ensures Offset(FORMAT, 10) == 14 && Offset(FORMAT, 11) == 16
  {
    TrailerOffsets();
    OffsetNext(FORMAT, 9);
    OffsetNext(FORMAT, 10);
  }

  /** Where each field sits in the record, little-endian: the header and
      the first two measurements. */
  lemma LayoutFront(v: seq<byte>)
    requires |v| == FRAME_LEN
    ensures Unpack(FORMAT, v).Ok?
    ensures var x := Unpack(FORMAT, v).value;
      && |x| == 12
      && x[0] == v[0] as int && x[1] == v[1] as int && x[2] == v[2] as int && x[3] == v[3] as int
      && x[4] == v[4] as int + 0x100 * (v[5] as int)
      && x[5] == v[6] as int + 0x100 * (v[7] as int)
  {
    FormatSize();
    HeaderOffsets();
    MeasurementOffsets();
    UnpackedU8(FORMAT, v, 0, 0);
    UnpackedU8(FORMAT, v, 1, 1);
    UnpackedU8(FORMAT, v, 2, 2);
    UnpackedU8(FORMAT, v, 3, 3);
    UnpackedU16(FORMAT, v, 4, 4);
    UnpackedU16(FORMAT, v, 5, 6);
  }

  /** Power, calories and the elapsed time. */
  lemma LayoutMiddle(v: seq<byte>)
    requires |v| == FRAME_LEN
    ensures Unpack(FORMAT, v).Ok?
    ensures var x := Unpack(FORMAT, v).value;
      && x[6] == v[8] as int + 0x100 * (v[9] as int)
      && x[7] == v[10] as int + 0x100 * (v[11] as int)
      && x[8] == v[12] as int && x[9] == v[13] as int
  {
    FormatSize();
    MeasurementOffsets();
    TrailerOffsets();
    UnpackedU16(FORMAT, v, 6, 8);
    UnpackedU16(FORMAT, v, 7, 10);
    UnpackedU8(FORMAT, v, 8, 12);
    UnpackedU8(FORMAT, v, 9, 13);
  }

  /** Distance and gear. */
  lemma LayoutBack(v: seq<byte>)
    requires |v| == FRAME_LEN
    ensures Unpack(FORMAT, v).Ok?
    ensures var x := Unpack(FORMAT, v).value;
      && x[10] == v[14] as int + 0x100 * (v[15] as int)
      && x[11] == v[16] as int
  {
    FormatSize();
    LastOffsets();
    UnpackedU16(FORMAT, v, 10, 14);
    UnpackedU8(FORMAT, v, 11, 16);
  }

  /** A 17-byte record read field by field, little-endian: bytes 0-3 are
      the version, data type and equipment id, then four 16-bit
      measurements, minutes and seconds, the 16-bit distance and the gear.
      `DecodeIsUnpack` shows this is exactly struct.unpack with `FORMAT`. */
  function Decode(v: seq<byte>): (f: Frame)
    requires |v| == FRAME_LEN
    ensures Valid(f)
  {
    Frame(v[0] as int, v[1] as int, v[2] as int, v[3] as int,
          v[4] as int + 0x100 * (v[5] as int), v[6] as int + 0x100 * (v[7] as int),
          v[8] as int + 0x100 * (v[9] as int), v[10] as int + 0x100 * (v[11] as int),
          v[12] as int, v[13] as int,
          v[14] as int + 0x100 * (v[15] as int), v[16] as int)
  }

  /** The fields of `Decode` are the tuple struct.unpack returns. */
  lemma DecodeIsUnpack(v: seq<byte>)
    requires |v| == FRAME_LEN
    ensures Unpack(FORMAT, v) == Ok(Fields(Decode(v)))
  {
    LayoutFront(v);
    LayoutMiddle(v);
    LayoutBack(v);
    FieldsFromBytes(Unpack(FORMAT, v).value, v);
  }

  /** Twelve values read at the record's field offsets are its fields. */
  lemma FieldsFromBytes(x: seq<int>, v: seq<byte>)
    requires |x| == 12 && |v| == FRAME_LEN
    requires x[0] == v[0] as int && x[1] == v[1] as int && x[2] == v[2] as int && x[3] == v[3] as int
    requires x[4] == v[4] as int + 0x100 * (v[5] as int) && x[5] == v[6] as int + 0x100 * (v[7] as int)
    requires x[6] == v[8] as int + 0x100 * (v[9] as int) && x[7] == v[10] as int + 0x100 * (v[11] as int)
    requires x[8] == v[12] as int && x[9] == v[13] as int
    requires x[10] == v[14] as int + 0x100 * (v[15] as int) && x[11] == v[16] as int
    ensures x == Fields(Decode(v))
  {
  }

  /** The record a bike with these readings broadcasts. */
  function Encode(f: Frame): (v: seq<byte>)
    requires Valid(f)
    ensures |v| == FRAME_LEN
  {
    [f.versionMajor, f.versionMinor, f.dataType, f.equipmentId,
     f.cadenceTenths % 0x100, f.cadenceTenths / 0x100,
     f.heartRateTenths % 0x100, f.heartRateTenths / 0x100,
     f.power % 0x100, f.power / 0x100,
     f.calories % 0x100, f.calories / 0x100,
     f.minutes, f.seconds,
     f.distanceRaw % 0x100, f.distanceRaw / 0x100,
     f.gear]
  }

  lemma {:induction false} DecodeEncode(f: Frame)
    requires Valid(f)
    ensures Decode(Encode(f)) == f
  {
  }

  lemma {:induction false} EncodeDecode(v: seq<byte>)
    requires |v| == FRAME_LEN
    ensures Encode(Decode(v)) == v
  {
    var f := Decode(v);
    Halves(v[4], v[5], f.cadenceTenths);
    Halves(v[6], v[7], f.heartRateTenths);
    Halves(v[8], v[9], f.power);
    Halves(v[10], v[11], f.calories);
    Halves(v[14], v[15], f.distanceRaw);
    assert Encode(f) == v;
  }

  /** A 16-bit field read little-endian splits back into its two bytes. */
  lemma Halves(lo: byte, hi: byte, x: int)
    requires x == lo as int + 0x100 * (hi as int)
    ensures x % 0x100 == lo as int && x / 0x100 == hi as int
  {
  }

  /** `Encode` is struct.pack with `FORMAT`. */
  lemma {:induction false} EncodeIsPack(f: Frame)
    requires Valid(f)
    ensures Pack(FORMAT, Fields(f)) == Ok(Encode(f))
  {
    var v := Encode(f);
    DecodeIsUnpack(v);
    DecodeEncode(f);
    PackUnpack(FORMAT, v);
  }

  /** The attributes both parser classes keep. `resistence` is not set by
      the constructor, only by a decoded record, hence the Option. */
  datatype Readings = Readings(
    bikeId: int, versionMajor: int, versionMinor: int, dataType: int,
    cadence: real, heartRate: real, power: int, calories: int,
    minutes: int, seconds: int, distance: real, gear: int,
    resistance: Option<real>)

  /** Constructor: the id filter is masked to one byte, the readings zero. */
  function Init(bikeId: int): (s: Readings)
    ensures 0 <= s.bikeId < 0x100 && (bikeId - s.bikeId) % 0x100 == 0
    ensures 0 <= bikeId < 0x100 ==> s.bikeId == bikeId
    ensures s.resistance == None
    ensures s.versionMajor == 0 && s.versionMinor == 0 && s.dataType == 0
    ensures s.cadence == 0.0 && s.heartRate == 0.0 && s.power == 0 && s.calories == 0
    ensures s.minutes == 0 && s.seconds == 0 && s.distance == 0.0 && s.gear == 0
  {
    Readings(bikeId % 0x100, 0, 0, 0, 0.0, 0.0, 0, 0, 0, 0, 0.0, 0, None)
  }

  /** The record is present, 17 bytes long, and its id byte is `id`. */
  predicate Matches(msd: map<int, seq<byte>>, id: int)
  {
    MSD_KEY in msd && |msd[MSD_KEY]| == FRAME_LEN && msd[MSD_KEY][3] as int == id
  }

  /** What the readings hold after decoding record v, byte by byte:
      cadence and heart rate scaled by 1/10, distance with its unit bit
      dropped and scaled by 1/10, resistance gear/24 of 100. */
  ghost predicate Decoded(s: Readings, v: seq<byte>)
    requires |v| == FRAME_LEN
  {
    && s.versionMajor == v[0] as int && s.versionMinor == v[1] as int
    && s.dataType == v[2] as int && s.bikeId == v[3] as int
    && s.cadence * 10.0 == (v[4] as int + 0x100 * (v[5] as int)) as real
    && s.heartRate * 10.0 == (v[6] as int + 0x100 * (v[7] as int)) as real
    && s.power == v[8] as int + 0x100 * (v[9] as int)
    && s.calories == v[10] as int + 0x100 * (v[11] as int)
    && s.minutes == v[12] as int && s.seconds == v[13] as int
    && s.distance * 10.0 == (v[14] as int + 0x100 * (v[15] as int % 0x80)) as real
    && s.gear == v[16] as int
    && s.resistance == Some(v[16] as real * 100.0 / 24.0)
  }

  /** The tuple assignment from struct.unpack followed by the unit fix-ups.
      The branch on the distance unit bit evaluates a product and discards
      it, so only the masking remains. */
  function Apply(f: Frame): Readings
  {
    Readings(f.equipmentId, f.versionMajor, f.versionMinor, f.dataType,
      f.cadenceTenths as real / 10.0, f.heartRateTenths as real / 10.0,
      f.power, f.calories, f.minutes, f.seconds,
      (f.distanceRaw % 0x8000) as real / 10.0, f.gear,
      Some(f.gear as real / 24.0 * 100.0))
  }

  /** Decoding then applying a record gives the byte-level readings. */
  lemma ApplyDecode(v: seq<byte>)
    requires |v| == FRAME_LEN
    ensures Decoded(Apply(Decode(v)), v)
  {
    var f := Decode(v);
    var r := Apply(f);
    assert r.cadence * 10.0 == f.cadenceTenths as real;
    assert r.heartRate * 10.0 == f.heartRateTenths as real;
    DropTopBit(v[14], v[15]);
    assert r.distance * 10.0 == (f.distanceRaw % 0x8000) as real;
  }

  /** Masking a little-endian u16 with 0x7FFF masks its high byte with 0x7F. */
  lemma DropTopBit(lo: byte, hi: byte)
    ensures (lo as int + 0x100 * (hi as int)) % 0x8000 == lo as int + 0x100 * (hi as int % 0x80)
  {
    var h := hi as int;
    assert h == 0x80 * (h / 0x80) + h % 0x80;
    assert lo as int + 0x100 * h == 0x8000 * (h / 0x80) + (lo as int + 0x100 * (h % 0x80));
  }

  /** The distance unit flag (top bit) has no effect on the reading. */
  lemma DistanceIgnoresUnitBit(f: Frame)
    requires 0 <= f.distanceRaw < 0x8000
    ensures Apply(f.(distanceRaw := f.distanceRaw + 0x8000)).distance == Apply(f).distance
  {
  }

  /** The attributes after `parse_keiser_msd`, and its return value. */
  datatype Parsed = Parsed(state: Readings, accepted: bool)
}

=== FILE: keiser_listener.dfy ===
/** KeiserBLEListener.parse_keiser_msd (keiser.py). It filters on the record
    key, length and id byte only: a record of another data type is still
    decoded into the attributes, but the call reports it as not accepted. */
module KeiserListener {
  import opened Base
  import opened KeiserFrame

  /** The manufacturer-data dict has unique keys, so at most one entry can
      carry key 0x0102 and the loop over entries reduces to one lookup. */
  function Parse(s: Readings, msd: map<int, seq<byte>>): (r: Parsed)
    ensures !Matches(msd, s.bikeId) ==> r == Parsed(s, false)
    ensures r.accepted <==> Matches(msd, s.bikeId) && msd[MSD_KEY][2] == 0
    ensures Matches(msd, s.bikeId) ==> Decoded(r.state, msd[MSD_KEY])
    ensures r.state.bikeId == s.bikeId
  {
    if Matches(msd, s.bikeId) then
      var v := msd[MSD_KEY];
      ApplyDecode(v);
      var decoded := Apply(Decode(v));
      Parsed(decoded, decoded.dataType == 0)
    else
      Parsed(s, false)
  }
}

=== FILE: mock_data_rx.dfy ===
/** MockDataRx: the revolution accumulator of the simulated bike
    (ble_tx_mock.py). Unlike CountGenerator it estimates no rate, so `add`
    never divides by zero, it raises a `notify` flag on every completed
    revolution, and `get` masks both readings to 16 bits. */
module MockRx {
  import opened Base
  import opened EventTime
  import opened FixedWidth

  datatype MockDataRx = MockDataRx(
    revFloat: real,     // running revolution total
    revEvent: int,      // whole revolutions reported so far
    eventTimeMs: real,  // time of the last reported revolution, 1/1024 s
    notify: bool)       // a revolution has completed since construction

  /** The count is the floor of the non-negative total. */
  ghost predicate Inv(m: MockDataRx)
  {
    0 <= m.revEvent && m.revEvent as real <= m.revFloat < m.revEvent as real + 1.0
  }

  /** `__init__`: all counters zero, no notification. */
  function Init(): (m: MockDataRx)
    ensures Inv(m) && m.revEvent == 0 && m.eventTimeMs == 0.0 && !m.notify
    ensures m.revFloat == 0.0
  {
    MockDataRx(0.0, 0, 0.0, false)
  }

  /** `add(inc, now)`. Total: the only division, by diff, happens under
      the diff >= 1 guard. */
  function Add(m: MockDataRx, inc: real, now: real): (r: MockDataRx)
    ensures r.revFloat == m.revFloat + inc
    ensures r.revFloat - m.revEvent as real < 1.0 ==> r.revEvent == m.revEvent && r.eventTimeMs == m.eventTimeMs && r.notify == m.notify
    ensures r.revFloat - m.revEvent as real >= 1.0 ==> r.notify && r.revEvent > m.revEvent
    ensures r.revFloat - m.revEvent as real >= 1.0 && m.eventTimeMs < now * TICKS_PER_SECOND ==>
              m.eventTimeMs < r.eventTimeMs <= now * TICKS_PER_SECOND
    ensures r.revFloat - m.revEvent as real >= 1.0 ==>
              (r.eventTimeMs - m.eventTimeMs) * (r.revFloat - m.revEvent as real) ==
              (now * TICKS_PER_SECOND - m.eventTimeMs) * Trunc(r.revFloat - m.revEvent as real) as real
    ensures r.revEvent >= m.revEvent
    ensures m.notify ==> r.notify
    ensures Inv(m) && 0.0 <= inc ==> Inv(r)
  {
    var total := m.revFloat + inc;
    var diff := total - m.revEvent as real;
    if diff >= 1.0 then
      MockDataRx(total, Trunc(total), Interpolate(m.eventTimeMs, now, diff), true)
    else
      m.(revFloat := total)
  }

  /** `get()`: the count and the event time, each cut to 16 bits. */
  function Get(m: MockDataRx): (r: (int, int))
    ensures 0 <= r.0 < TWO16 && 0 <= r.1 < TWO16
    ensures (m.revEvent - r.0) % TWO16 == 0
    ensures (Trunc(m.eventTimeMs) - r.1) % TWO16 == 0
  {
    TruncOfInt(m.revEvent);
    (UInt16(m.revEvent as real), UInt16(m.eventTimeMs))
  }

  /** A sequence of `add` calls, each with (increment, now). */
  function Run(m: MockDataRx, samples: seq<(real, real)>): MockDataRx
  {
    if |samples| == 0 then m
    else
      var s := samples[|samples| - 1];
      Add(Run(m, samples[..|samples| - 1]), s.0, s.1)
  }

  /** With non-negative increments the count stays the floor of the total. */
  lemma {:induction false} RunKeepsInv(m: MockDataRx, samples: seq<(real, real)>)
    requires Inv(m)
    requires forall i :: 0 <= i < |samples| ==> 0.0 <= samples[i].0
    ensures Inv(Run(m, samples))
    ensures Run(m, samples).revEvent == Run(m, samples).revFloat.Floor
  {
    if |samples| > 0 {
      RunKeepsInv(m, samples[..|samples| - 1]);
    }
  }

  /** Once raised, `notify` stays raised, and the count never decreases. */
  lemma {:induction false} RunNeverResets(m: MockDataRx, samples: seq<(real, real)>)
    ensures m.notify ==> Run(m, samples).notify
    ensures m.revEvent <= Run(m, samples).revEvent
  {
    if |samples| > 0 {
      RunNeverResets(m, samples[..|samples| - 1]);
    }
  }
}

=== FILE: power_data.dfy ===
/** PowerData and the hand-built power page of ble.py. Each sample bumps an
    8-bit event counter and a 16-bit accumulated power; the page is then
    appended byte by byte to a bytearray, which raises ValueError for any
    byte outside 0..255. */
module PowerDataModel {
  import opened Base
  import opened FixedWidth
  import AntPages

  datatype PowerData = PowerData(
    eventCount: int,
    eventTime: int,          // never updated
    cumulativePower: int,
    instantaneousPower: int,
    cadence: int)

  /** `__init__`: all fields zero. */
  const Fresh: PowerData := PowerData(0, 0, 0, 0, 0)

  /** Fields the update keeps in their wrapped ranges. */
  predicate Wrapped(pd: PowerData)
  {
    0 <= pd.eventCount < TWO8 && 0 <= pd.cumulativePower < TWO16 && 0 <= pd.cadence < TWO8
  }

  /** `update(power, cadence)`. */
  function Update(pd: PowerData, power: real, cadence: real): (r: PowerData)
    ensures Wrapped(r)
    ensures (r.eventCount - pd.eventCount - 1) % TWO8 == 0
    ensures (r.cumulativePower - pd.cumulativePower - Trunc(power)) % TWO16 == 0
    ensures r.instantaneousPower == Trunc(power)
    ensures (Trunc(cadence) - r.cadence) % TWO8 == 0
    ensures r.eventTime == pd.eventTime
  {
    PowerData(
      (pd.eventCount + 1) % TWO8,
      pd.eventTime,
      (pd.cumulativePower + Trunc(power)) % TWO16,
      Trunc(power),
      UInt8(cadence))
  }

  /** Updates for a sequence of (power, cadence) samples, in order. */
  function UpdateAll(pd: PowerData, samples: seq<(real, real)>): PowerData
  {
    if |samples| == 0 then pd
    else
      var s := samples[|samples| - 1];
      Update(UpdateAll(pd, samples[..|samples| - 1]), s.0, s.1)
  }

  /** The sum of int(power) over the samples. */
  function TotalPower(samples: seq<(real, real)>): int
  {
    if |samples| == 0 then 0 else TotalPower(samples[..|samples| - 1]) + Trunc(samples[|samples| - 1].0)
  }

  /** After n updates from fresh, the event count is n mod 256 and the
      accumulated power is the sum of int(power) mod 65536. */
  lemma {:induction false} UpdateAllCounts(samples: seq<(real, real)>)
    ensures UpdateAll(Fresh, samples).eventCount == |samples| % TWO8
    ensures UpdateAll(Fresh, samples).cumulativePower == TotalPower(samples) % TWO16
    ensures UpdateAll(Fresh, samples).eventTime == 0
  {
    if |samples| > 0 {
      var prefix := samples[..|samples| - 1];
      UpdateAllCounts(prefix);
      var before := UpdateAll(Fresh, prefix);
      AddUnderMod(|prefix|, 1, TWO8);
      AddUnderMod(TotalPower(prefix), Trunc(samples[|samples| - 1].0), TWO16);
    }
  }

  /** Reducing a summand first does not change the reduced sum. */
  lemma AddUnderMod(a: int, b: int, m: int)
    requires m == TWO8 || m == TWO16
    ensures (a % m + b) % m == (a + b) % m
  {
    var q := a / m;
    assert a == m * q + a % m;
    assert a + b == m * q + (a % m + b);
  }

  /** `bytearray.append`: raises unless the value is a byte. */
  function Append(buf: Result<seq<byte>>, x: int): (r: Result<seq<byte>>)
  {
    if buf.Err? then buf
    else if 0 <= x < 0x100 then Ok(buf.value + [x])
    else Err(ValueError)
  }

  /** The page built in `AntPlusTx.loop`. `>> 8` is floor division by 256;
      the high bytes are not masked, so an accumulated or instantaneous
      power outside 0..65535 makes `append` raise. */
  function Payload(pd: PowerData): (r: Result<seq<byte>>)
    ensures r.Ok? <==> 0 <= pd.cumulativePower < TWO16 && 0 <= pd.instantaneousPower < TWO16
    ensures r.Err? ==> r.error == ValueError
    ensures r.Ok? ==> |r.value| == 8 && r.value[0] == 0x10 && r.value[2] == 0xFF
  {
    var buf := Ok([0x10]);
    var buf := Append(buf, pd.eventCount % 0x100);
    var buf := Append(buf, 0xFF);
    var buf := Append(buf, UInt8(pd.cadence as real));
    var buf := Append(buf, pd.cumulativePower % 0x100);
    var buf := Append(buf, pd.cumulativePower / 0x100);
    var buf := Append(buf, pd.instantaneousPower % 0x100);
    Append(buf, pd.instantaneousPower / 0x100)
  }

  /** In every wrapped state the hand-built page is byte for byte the
      struct-packed power-only page of ant_tx.py. */
  lemma PayloadIsPowerPage(pd: PowerData)
    requires Wrapped(pd) && 0 <= pd.instantaneousPower < TWO16
    ensures Payload(pd) == AntPages.PowerPage(AntPages.PowerFields(pd.eventCount, pd.cadence, pd.cumulativePower, pd.instantaneousPower))
  {
    TruncOfInt(pd.cadence);
    var p := Payload(pd).value;
    var q := AntPages.PowerPage(AntPages.PowerFields(pd.eventCount, pd.cadence, pd.cumulativePower, pd.instantaneousPower)).value;
    assert p == q;
  }

  /** After any samples from fresh, the page is built without raising
      exactly when the last power read fits 16 bits unsigned. */
  lemma PayloadAfterUpdates(samples: seq<(real, real)>)
    requires |samples| > 0
    ensures Payload(UpdateAll(Fresh, samples)).Ok? <==> 0 <= Trunc(samples[|samples| - 1].0) < TWO16
  {
  }
}

=== FILE: struct_pack.dfy ===
/** Python's `struct.pack` / `struct.unpack` for the little-endian ("<")
    formats the core uses: codes B (u8), H (u16), h (i16) and I (u32).
    Packing raises struct.error when the number of values differs from the
    format or a value does not fit its code; unpacking raises when the buffer
    length differs from the format's size. */
module StructPack {
  import opened Base

  /** 256 to the power n: the number of values n bytes can hold. */
  function Pow256(n: nat): (r: nat)
    ensures r >= 1
  {
    if n == 0 then 1 else 0x100 * Pow256(n - 1)
  }

  /** The n-byte little-endian representation of v. */
  function ToLittleEndian(v: nat, n: nat): (s: seq<byte>)
    requires v < Pow256(n)
    ensures |s| == n
  {
    if n == 0 then [] else [v % 0x100] + ToLittleEndian(v / 0x100, n - 1)
  }

  /** The unsigned number a little-endian byte string denotes. */
  function FromLittleEndian(s: seq<byte>): (v: nat)
    ensures v < Pow256(|s|)
  {
    if |s| == 0 then 0 else s[0] + 0x100 * FromLittleEndian(s[1..])
  }

  lemma {:induction false} LittleEndianRoundTrip(v: nat, n: nat)
    requires v < Pow256(n)
    ensures FromLittleEndian(ToLittleEndian(v, n)) == v
  {
    if n > 0 {
      var s := ToLittleEndian(v, n);
      assert s[1..] == ToLittleEndian(v / 0x100, n - 1);
      LittleEndianRoundTrip(v / 0x100, n - 1);
    }
  }

  lemma {:induction false} LittleEndianBytesRoundTrip(s: seq<byte>)
    ensures ToLittleEndian(FromLittleEndian(s), |s|) == s
  {
    if |s| > 0 {
      var v := FromLittleEndian(s);
      assert v % 0x100 == s[0] && v / 0x100 == FromLittleEndian(s[1..]);
      LittleEndianBytesRoundTrip(s[1..]);
    }
  }

  /** Format codes: B, H, h and I of the struct module. */
  datatype Code = U8 | U16 | I16 | U32

  /** Standard size of a code, in bytes. */
  function Size(c: Code): nat
  {
    match c
    case U8 => 1
    case U16 => 2
    case I16 => 2
    case U32 => 4
  }

  /** The values struct accepts for a code without raising. */
  predicate Fits(c: Code, v: int)
  {
    match c
    case U8 => 0 <= v < 0x100
    case U16 => 0 <= v < 0x1_0000
    case I16 => -0x8000 <= v < 0x8000
    case U32 => 0 <= v < 0x1_0000_0000
  }

  function EncodeField(c: Code, v: int): (s: seq<byte>)
    requires Fits(c, v)
    ensures |s| == Size(c)
  {
    match c
    case U8 => ToLittleEndian(v, 1)
    case U16 => ToLittleEndian(v, 2)
    case I16 => ToLittleEndian(v % 0x1_0000, 2)
    case U32 => ToLittleEndian(v, 4)
  }

  function DecodeField(c: Code, s: seq<byte>): (v: int)
    requires |s| == Size(c)
    ensures Fits(c, v)
  {
    var u := FromLittleEndian(s);
    assert Pow256(1) == 0x100 && Pow256(2) == 0x1_0000 && Pow256(4) == 0x1_0000_0000;
    if c == I16 && u >= 0x8000 then u - 0x1_0000 else u
  }

  lemma FieldRoundTrip(c: Code, v: int)
    requires Fits(c, v)
    ensures DecodeField(c, EncodeField(c, v)) == v
  {
    match c
    case U8 => LittleEndianRoundTrip(v, 1);
    case U16 => LittleEndianRoundTrip(v, 2);
    case I16 => LittleEndianRoundTrip(v % 0x1_0000, 2);
    case U32 => LittleEndianRoundTrip(v, 4);
  }

  lemma FieldBytesRoundTrip(c: Code, s: seq<byte>)
    requires |s| == Size(c)
    ensures EncodeField(c, DecodeField(c, s)) == s
  {
    LittleEndianBytesRoundTrip(s);
  }

  /** struct.calcsize: the buffer length a format packs to. */
  function CalcSize(fmt: seq<Code>): nat
  {
    if |fmt| == 0 then 0 else Size(fmt[0]) + CalcSize(fmt[1..])
  }

  /** Position of field i in a packed buffer. */
  function Offset(fmt: seq<Code>, i: nat): nat
    requires i <= |fmt|
  {
    if i == 0 then 0 else Size(fmt[0]) + Offset(fmt[1..], i - 1)
  }

  /** Each field starts where the previous one ends. */
  lemma {:induction false} OffsetNext(fmt: seq<Code>, i: nat)
    requires i < |fmt|
    ensures Offset(fmt, i + 1) == Offset(fmt, i) + Size(fmt[i])
  {
    if i > 0 {
      OffsetNext(fmt[1..], i - 1);
    }
  }

  /** The last field ends at the packed size. */
  lemma {:induction false} OffsetEnd(fmt: seq<Code>)
    ensures Offset(fmt, |fmt|) == CalcSize(fmt)
  {
    if |fmt| > 0 {
      OffsetEnd(fmt[1..]);
    }
  }

  function Pack(fmt: seq<Code>, vals: seq<int>): (r: Result<seq<byte>>)
    ensures r.Ok? <==> |vals| == |fmt| && forall i :: 0 <= i < |fmt| ==> Fits(fmt[i], vals[i])
    ensures r.Ok? ==> |r.value| == CalcSize(fmt)
    ensures r.Err? ==> r.error == StructError
  {
    if |fmt| != |vals| then Err(StructError)
    else if |fmt| == 0 then Ok([])
    else if !Fits(fmt[0], vals[0]) then Err(StructError)
    else
      var rest :- Pack(fmt[1..], vals[1..]);
      Ok(EncodeField(fmt[0], vals[0]) + rest)
  }

  function Unpack(fmt: seq<Code>, s: seq<byte>): (r: Result<seq<int>>)
    ensures r.Ok? <==> |s| == CalcSize(fmt)
    ensures r.Ok? ==> |r.value| == |fmt|
    ensures r.Err? ==> r.error == StructError
  {
    if |fmt| == 0 then (if |s| == 0 then Ok([]) else Err(StructError))
    else if |s| < Size(fmt[0]) then Err(StructError)
    else
      var rest :- Unpack(fmt[1..], s[Size(fmt[0])..]);
      Ok([DecodeField(fmt[0], s[..Size(fmt[0])])] + rest)
  }

  /** Unpacking what was packed gives back the values. */
  lemma {:induction false} UnpackPack(fmt: seq<Code>, vals: seq<int>)
    requires Pack(fmt, vals).Ok?
    ensures Unpack(fmt, Pack(fmt, vals).value) == Ok(vals)
  {
    if |fmt| > 0 {
      assert Fits(fmt[0], vals[0]);
      var head := EncodeField(fmt[0], vals[0]);
      var rest := Pack(fmt[1..], vals[1..]);
      assert rest.Ok? by {
        forall i | 0 <= i < |fmt[1..]|
          ensures Fits(fmt[1..][i], vals[1..][i])
        {
          assert Fits(fmt[i + 1], vals[i + 1]);
        }
      }
      var s := head + rest.value;
      assert Pack(fmt, vals).value == s;
      assert s[..Size(fmt[0])] == head;
      assert s[Size(fmt[0])..] == rest.value;
      FieldRoundTrip(fmt[0], vals[0]);
      UnpackPack(fmt[1..], vals[1..]);
      assert [vals[0]] + vals[1..] == vals;
    }
  }

  /** Packing a non-empty format writes the first field, then the rest. */
  lemma PackCons(fmt: seq<Code>, h: int, rest: seq<int>)
    requires |fmt| > 0 && Fits(fmt[0], h) && Pack(fmt[1..], rest).Ok?
    ensures Pack(fmt, [h] + rest) == Ok(EncodeField(fmt[0], h) + Pack(fmt[1..], rest).value)
  {
    assert ([h] + rest)[0] == h && ([h] + rest)[1..] == rest;
  }

  /** Packing what was unpacked gives back the buffer. */
  lemma {:induction false} PackUnpack(fmt: seq<Code>, s: seq<byte>)
    requires |s| == CalcSize(fmt)
    ensures Pack(fmt, Unpack(fmt, s).value) == Ok(s)
  {
    if |fmt| > 0 {
      var k := Size(fmt[0]);
      UnpackCons(fmt, s);
      var h := DecodeField(fmt[0], s[..k]);
      var rest := Unpack(fmt[1..], s[k..]).value;
      PackUnpack(fmt[1..], s[k..]);
      FieldBytesRoundTrip(fmt[0], s[..k]);
      PackCons(fmt, h, rest);
      assert s[..k] + s[k..] == s;
    }
  }

  /** Unpacking a non-empty format reads the first field, then the rest. */
  lemma UnpackCons(fmt: seq<Code>, s: seq<byte>)
    requires |fmt| > 0 && |s| == CalcSize(fmt)
    ensures Size(fmt[0]) <= |s| && Unpack(fmt[1..], s[Size(fmt[0])..]).Ok?
    ensures Unpack(fmt, s).value ==
      [DecodeField(fmt[0], s[..Size(fmt[0])])] + Unpack(fmt[1..], s[Size(fmt[0])..]).value
  {
  }

  /** Field i of a non-empty format is field i - 1 of its tail, shifted by
      the size of the first field. */
  lemma TailAt(fmt: seq<Code>, s: seq<byte>, i: nat)
    requires 0 < i < |fmt| && |s| == CalcSize(fmt)
    ensures fmt[1..][i - 1] == fmt[i]
    ensures Offset(fmt, i) == Size(fmt[0]) + Offset(fmt[1..], i - 1)
    ensures Offset(fmt[1..], i - 1) + Size(fmt[i]) <= |s| - Size(fmt[0]) ==>
      var k, o, n := Size(fmt[0]), Offset(fmt[1..], i - 1), Size(fmt[i]);
      s[k..][o..o + n] == s[k + o..k + o + n]
  {
    var k, o, n := Size(fmt[0]), Offset(fmt[1..], i - 1), Size(fmt[i]);
    if o + n <= |s| - k {
      var inner := s[k..][o..o + n];
      var outer := s[k + o..k + o + n];
      forall j | 0 <= j < n
        ensures inner[j] == outer[j]
      {
        assert inner[j] == s[k + o + j];
      }
    }
  }

  /** Field i of an unpacked buffer is decoded from the bytes at its offset. */
  lemma {:induction false} UnpackAt(fmt: seq<Code>, s: seq<byte>, i: nat)
    requires |s| == CalcSize(fmt) && i < |fmt|
    ensures Offset(fmt, i) + Size(fmt[i]) <= |s|
    ensures Unpack(fmt, s).value[i] == DecodeField(fmt[i], s[Offset(fmt, i)..Offset(fmt, i) + Size(fmt[i])])
  {
    var k := Size(fmt[0]);
    UnpackCons(fmt, s);
    if i == 0 {
      assert s[0..k] == s[..k];
    } else {
      UnpackAt(fmt[1..], s[k..], i - 1);
      TailAt(fmt, s, i);
    }
  }

  /** Every unpacked value fits its code, so packing it again never raises. */
  lemma UnpackFits(fmt: seq<Code>, s: seq<byte>)
    requires |s| == CalcSize(fmt)
    ensures forall i :: 0 <= i < |fmt| ==> Fits(fmt[i], Unpack(fmt, s).value[i])
    ensures Pack(fmt, Unpack(fmt, s).value).Ok?
  {
    forall i | 0 <= i < |fmt|
      ensures Fits(fmt[i], Unpack(fmt, s).value[i])
    {
      UnpackAt(fmt, s, i);
    }
  }

  /** The bytes of field i of a packed buffer encode value i. */
  lemma {:induction false} PackAt(fmt: seq<Code>, vals: seq<int>, i: nat)
    requires Pack(fmt, vals).Ok? && i < |fmt|
    ensures Offset(fmt, i) + Size(fmt[i]) <= CalcSize(fmt)
    ensures Fits(fmt[i], vals[i])
    ensures Pack(fmt, vals).value[Offset(fmt, i)..Offset(fmt, i) + Size(fmt[i])] == EncodeField(fmt[i], vals[i])
  {
    var p := Pack(fmt, vals).value;
    UnpackPack(fmt, vals);
    UnpackAt(fmt, p, i);
    FieldBytesRoundTrip(fmt[i], p[Offset(fmt, i)..Offset(fmt, i) + Size(fmt[i])]);
  }

  /** A one-byte field is the byte itself. */
  lemma DecodeU8(s: seq<byte>)
    requires |s| == 1
    ensures DecodeField(U8, s) == s[0] as int
  {
    assert s[1..] == [];
  }

  /** A two-byte field is low byte plus 256 times high byte. */
  lemma DecodeU16(s: seq<byte>)
    requires |s| == 2
    ensures DecodeField(U16, s) == s[0] as int + 0x100 * (s[1] as int)
  {
    assert FromLittleEndian(s[1..]) == s[1] as int + 0x100 * FromLittleEndian(s[1..][1..]);
    assert s[1..][1..] == [];
  }

  /** The bytes of a one-byte field. */
  lemma EncodeU8(v: int)
    requires Fits(U8, v)
    ensures EncodeField(U8, v) == [v]
  {
  }

  /** The bytes of a two-byte unsigned field: low byte first. */
  lemma EncodeU16(v: int)
    requires Fits(U16, v)
    ensures EncodeField(U16, v) == [v % 0x100, v / 0x100]
  {
    assert ToLittleEndian(v / 0x100, 1) == [v / 0x100];
  }

  /** Field i of an unpacked buffer, a u8 at offset o, is byte o. */
  lemma UnpackedU8(fmt: seq<Code>, s: seq<byte>, i: nat, o: nat)
    requires |s| == CalcSize(fmt) && i < |fmt| && fmt[i] == U8 && Offset(fmt, i) == o
    ensures o < |s| && Unpack(fmt, s).value[i] == s[o] as int
  {
    UnpackAt(fmt, s, i);
    DecodeU8(s[o..o + 1]);
  }

  /** Field i of an unpacked buffer, a u16 at offset o, is read little-endian. */
  lemma UnpackedU16(fmt: seq<Code>, s: seq<byte>, i: nat, o: nat)
    requires |s| == CalcSize(fmt) && i < |fmt| && fmt[i] == U16 && Offset(fmt, i) == o
    ensures o + 1 < |s| && Unpack(fmt, s).value[i] == s[o] as int + 0x100 * (s[o + 1] as int)
  {
    UnpackAt(fmt, s, i);
    DecodeU16(s[o..o + 2]);
  }

  /** Value i of a packed buffer, a u8 at offset o, is byte o. */
  lemma PackedU8(fmt: seq<Code>, vals: seq<int>, i: nat, o: nat)
    requires Pack(fmt, vals).Ok? && i < |fmt| && fmt[i] == U8 && Offset(fmt, i) == o
    ensures o < |Pack(fmt, vals).value| && Pack(fmt, vals).value[o] == vals[i]
  {
    PackAt(fmt, vals, i);
    EncodeU8(vals[i]);
    assert Pack(fmt, vals).value[o..o + 1][0] == Pack(fmt, vals).value[o];
  }

  /** Value i of a packed buffer, a u16 at offset o, is written low byte first. */
  lemma PackedU16(fmt: seq<Code>, vals: seq<int>, i: nat, o: nat)
    requires Pack(fmt, vals).Ok? && i < |fmt| && fmt[i] == U16 && Offset(fmt, i) == o
    ensures o + 1 < |Pack(fmt, vals).value|
    ensures Pack(fmt, vals).value[o] == vals[i] % 0x100
    ensures Pack(fmt, vals).value[o + 1] == vals[i] / 0x100
  {
    var p := Pack(fmt, vals).value;
    PackAt(fmt, vals, i);
    EncodeU16(vals[i]);
    assert p[o..o + 2][0] == p[o] && p[o..o + 2][1] == p[o + 1];
  }
}
